=== FILE: README.md ===
# signal-assistant command and notification coordinator, in Dafny

This project models the decision logic of a personal Signal assistant. The
assistant takes chat commands from its owner over `signal-cli`, files
attachments into a shared folder and sends files back from it, and sends price
alerts on a timer. All of that logic sits between opaque I/O calls, and the
model covers it:

- `Assistant` (assistant.dfy). This is the coordinator. It validates each
  message: the sender must be the owner, and the text must start with `!`. It
  splits the text into a command and arguments on single spaces. It routes the
  command by exact match, with an argument-count check. It models what
  `storeAttachments`, `listSharedFiles`, `returnFile` and `returnManual` decide.
  It reports errors as `"<context> <err>"`. It covers the per-message loop of
  `Run` and one tick of `runAlerts`. Everything the coordinator does is an
  `Event` in a trace:
  - a copy;
  - a send to the owner;
  - an error report (one `errorHandler` call);
  - the ten-second pause between alerts.
- `Commands` (commands.dfy). The four-entry command table, `getAllCommands`
  and the manual. Go visits a map in no fixed order, so the visiting order is a
  parameter, and it must list every key exactly once.
- `AlertHandlers` (alert_handlers.dfy). The crypto alert rule. It selects the
  threshold that was crossed, sorts the 6-hour and 24-hour changes into bands,
  and stops early when the price feed fails. Prices are `real`s.
- `Signal` (signal.dfy). The phone-number gate and the `signal-cli` argument
  vector of `SendMessage`, the receipt filter of `Listen`, and the service
  search of `verifyConnection`.
- `SignalMessage` (message.dfy). The message record. The `Message` datatype
  constructor is `NewMessage`: it stores its four arguments unchanged. Also the
  decoder of D-Bus signal bodies, which checks element types in a fixed order.
- `Config` (config.dfy). The start-up checks of `main` and the trailing-slash
  normalisation of the shared folder.
- `GoLib` (golib.dfy). The Go behaviour the above relies on:
  - `strings.Split` on `" "`;
  - `%v` of a non-negative integer;
  - the UTF-8 encoding of a string, since Go's `len` and slicing count bytes;
  - map iteration order.

  Two functions there are for specification only, used to state contracts:
  `Join` puts pieces back together with single spaces, the inverse that the
  split round-trip is stated with, and `Contains` means "occurs somewhere in".
  No Go code calls `strings.Join` or `strings.Contains`.

The outside world is made of oracles, which are parameters. An `Env` holds:

- the file copy;
- `ioutil.ReadDir`;
- `os.IsNotExist(os.Stat(p))`;
- running `signal-cli`, which returns its error;
- `time.Now()`;
- the order `!man` visits the table in.

The price feed is a function from ticker id to a feed result. In one alert
tick, what each alert handler returned is given as a sequence of strings.

Go runtime panics fall into three kinds; the first two are modelled and the
third is not:
- `PhoneNumber[0:2]` on a number shorter than 2 bytes is a precondition
  (`Signal.TwoBytesLong(owner)`, at least two bytes of UTF-8, on everything
  that sends). A one-character number such as "é" is two bytes long, so it
  passes the slice and is refused by the gate.
- Indexing a D-Bus body that is too short is an explicit `BodyTooShort`
  result. `Listen` stops there, with `panicked` set.
- Dereferencing a nil pointer field of a coinpaprika ticker in
  `cryptoAlertHandler` is not modelled: the `feed` oracle always supplies the
  symbol, the price and both changes (see "## Left out").

Three places where the code departs from the evident intent are modelled as
written. A comment and a lemma exhibit each one:
- The phone gate rejects a number only if it fails both tests, "+1" prefix and
  length 12 bytes. `PhoneRejected` and `Signal.PhoneGateIsLax` show this: "+1" alone
  and "hello, world" both pass.
- The 24-hour lines print the 6-hour change
  (`AlertHandlers.TwentyFourHourLineReportsSixHourChange`).
- A feed error for one ticker ends the whole alert handler
  (`AlertHandlers.FeedErrorAborts`).

## Model

| member | source | states |
|---|---|---|
| GoLib.Split | assistant/assistant.go:87 | `strings.Split(text, " ")` gives at least one piece, and no piece has a space. The first piece is the text before the first space. There is exactly one piece iff the text has no space. |
| GoLib.JoinSplit | assistant/assistant.go:87 | Re-joining the pieces with single spaces gives back the original text. Empty pieces are kept. |
| GoLib.SplitJoin | assistant/assistant.go:87 | Splitting a space-joined list of space-free pieces gives back the pieces. |
| GoLib.Itoa | assistant/assistant.go:99 | The `%v` rendering of a count in the arity errors is a non-empty string of decimal digits, with no leading zero, whose value is the count. |
| GoLib.EncodeChar | signal/signal.go:60 | A character is one to four UTF-8 bytes. It is one byte, equal to its code, exactly when it is ASCII; a longer encoding starts with a lead byte of at least 0xC0. |
| GoLib.Utf8 | signal/signal.go:60 | A string has at least as many bytes as characters, and no bytes exactly when it is empty. |
| GoLib.Utf8TwoAsciiPrefix | signal/signal.go:60 | The first two bytes equal two given ASCII characters iff the string starts with those two characters. |
| GoLib.EnumerationsArePermutations | assistant/commands.go:38 | Any two orders in which a map range may visit the same keys are permutations of each other. |
| Assistant.ValidateMessage | assistant/assistant.go:76-84 | A message passes iff its sender is the owner and its text is non-empty and starts with '!'. A stranger gets "unknown number" with their number. The owner gets "Invalid command format" with the text. |
| Assistant.StrangerRejectedRegardlessOfText | assistant/assistant.go:77-79 | A non-owner's message is rejected, and changing its text does not change the result. The text is never consulted. |
| Assistant.ParseCommand | assistant/assistant.go:87-95 | The command is the text before the first space. The arguments are space-free, and there are none iff the text has no space. Command and arguments joined by " " reproduce the text. |
| Assistant.ParseCommandInvertsJoin | assistant/assistant.go:87-95 | Parsing the space-joined rendering of a space-free command and arguments recovers exactly that command and those arguments. |
| Assistant.RouteCommand | assistant/assistant.go:96-127 | `!store` routes with its first two arguments, and fewer than 2 give "Expected 2 arguments, got N". `!get` routes with all its arguments, and none gives "Expected at least 1 argument, got 0". `!list` and `!man` route directly. Any other name gives the `!man` hint. |
| Assistant.RouteAgreesWithRegistry | assistant/assistant.go:96-127 | A command reaches a handler iff its name is in the registry and it has at least the minimum number of arguments (2, 1, 0, 0). |
| Assistant.StoreIgnoresExtraArgs | assistant/assistant.go:97-102 | Arguments after the second are ignored by `!store`. |
| Assistant.MatchIsCaseSensitive | assistant/assistant.go:96-126 | "!STORE" is not recognised and gets the `!man` hint. |
| Assistant.StoreAttachments | assistant/assistant.go:132-149 | Zero or several attachments fail with their own messages and copy nothing. With exactly one, it is copied to folder+name+"."+ext. A copy error is returned with nothing sent. Otherwise one "Saved attachment at <path>" message to the owner follows, and the handler returns that send's error. A success ends with the send. |
| Assistant.StoredFileIsRetrievable | assistant/assistant.go:143 | The path `!store name ext` writes is the path `!get name.ext` looks up. |
| Assistant.ListSharedFiles | assistant/assistant.go:152-163 | A directory read error is returned and nothing is sent. Otherwise one message to the owner is sent with no attachments, and its send error is returned. The text is "All files in <folder>\n" followed by one "<name>, size: <n>\n" line per entry in the order `ReadDir` gives. |
| Assistant.CollectRequested | assistant/assistant.go:166-177 | The loop of `returnFile` collects exactly the existing paths, in request order. Its text is the "Unable to find <path>." notices of the missing paths, in request order. |
| Assistant.RequestsPartitioned | assistant/assistant.go:169-177 | Each requested path appears exactly once, either as an attachment or as missing. Attachments all exist and missing paths all do not. |
| Assistant.RequestsKeepOrder | assistant/assistant.go:169-177 | The result for a concatenated request list is the result for the first part followed by that for the rest, on both sides. So request order is kept. |
| Assistant.ReturnFile | assistant/assistant.go:166-180 | Exactly one send is made, and its error is returned. It carries the found files as attachments and the missing-file notices as text, even when nothing was found. |
| Assistant.TrailingSpaceAttachesFolder | assistant/assistant.go:170-173 | "!get " asks for the empty name. Its path is the shared folder itself, which exists, so the folder is attached. |
| Assistant.ReturnManual | assistant/assistant.go:183-187 | One message with no attachments is sent, with the manual as its text, and its error is returned. The text contains every command's "<cmd> ---\n <desc>\n" segment and so every name. |
| Assistant.SendStep | assistant/assistant.go:190-194 | `sendMessage` makes one send to the owner with the given text and attachments, stamped with the current time, and returns that send's error. |
| Assistant.ExecuteCommand | assistant/assistant.go:86-129 | A rejected command fails before any handler runs, with no effects. Otherwise the routed handler's effects and error are the result. Handlers only copy and message the owner, and only `!store` copies. A success ends with a message to the owner. |
| Assistant.ErrorReport | assistant/assistant.go:197-198 | The report text is the context, one space, then the error text. |
| Assistant.ProcessMessage | assistant/assistant.go:40-49 | Every message gets an answer. A failed message ends with an error report, and a validation failure does nothing else. A message that passes validation is executed: the command's effects open the trace. A message that succeeds yields exactly the command's effects, ending with a message to the owner. |
| Assistant.OneReportPerFailure | assistant/assistant.go:197-204 | Each message yields exactly one error report when validation or execution fails, with the matching "<context> <err>" text. It yields none when both succeed. |
| Assistant.Run | assistant/assistant.go:40-50 | Each message adds at least one event, and the run ends with a message to the owner or an error report. |
| Assistant.RunReportsEveryFailureOnce | assistant/assistant.go:40-50 | Over any run, the number of error reports equals the number of failed messages. |
| Assistant.RunContinues | assistant/assistant.go:40-50 | The loop never stops early. A run over two batches is the run over the first followed by the run over the second. |
| Assistant.RunMessagesOnlyOwner | assistant/assistant.go:190-194 | Every message the dispatch loop sends is addressed to the owner. |
| Assistant.AlertTurn | assistant/assistant.go:61-70 | An empty alert result does nothing. A non-empty one is sent to the owner without attachments, and one pause follows it; nothing is copied and at most three events occur. When the send succeeds, nothing is reported: the turn is exactly the send and the pause. |
| Assistant.Tick | assistant/assistant.go:59-71 | A tick never copies. Every send goes to the owner without attachments, at the current time. A tick where every handler returned "" does nothing. |
| Assistant.RunAlertsTick | assistant/assistant.go:58-71 | One tick over the registered alerts sends exactly their non-empty results, in registration order, each followed by one pause. |
| Assistant.TickSendsNonEmptyInOrder | assistant/assistant.go:59-71 | In one tick, exactly the non-empty results are sent, in registration order. There are as many pauses as sends. |
| Assistant.TickContinues | assistant/assistant.go:59-71 | A tick over two runs of alerts is the tick over the first followed by the tick over the second. A failed send does not stop later alerts. |
| Assistant.FailedAlertSendIsReported | assistant/assistant.go:63-66 | A failed alert send produces exactly one report: "Error occured while trying to send message during <alert> alert <err>". |
| Commands.RegistryShape | assistant/commands.go:5-29 | The table has exactly the four distinct names `!store`, `!get`, `!list`, `!man`. Each starts with '!' and maps to its own description. |
| Commands.InRegistry | assistant/commands.go:24-29 | A name is registered iff it is one of the four names. |
| Commands.CommandsOfEnumeration | assistant/commands.go:37-46 | Visiting a table in any iteration order gives one entry per key, each with that key's description and no arguments. No key is duplicated or missing. |
| Commands.GetAllCommands | assistant/commands.go:37-46 | Four entries, one per registered name, each with its own description and empty arguments. No duplicates. |
| Commands.ManualOfMentionsEveryEntry | assistant/commands.go:48-53 | A manual rendered in any iteration order contains every "<cmd> ---\n <desc>\n" segment, and so every name. |
| Commands.GetCommandManual | assistant/commands.go:48-53 | Whatever the visiting order, the manual contains every registered name together with its description. |
| Commands.ManualIsPermutationOfSegments | assistant/commands.go:48-53 | Manuals rendered in any two visiting orders consist of the same segments, each once, so they differ only by a permutation. |
| AlertHandlers.ThresholdsAscending | assistant/alert_handlers.go:15-18 | Each ticker's threshold list is strictly ascending. |
| AlertHandlers.FirstCrossed | assistant/alert_handlers.go:36-41 | No threshold is cited iff the price is below all of them. Otherwise the cited one is the first in list order that the price reaches. |
| AlertHandlers.CitedThresholdIsLowest | assistant/alert_handlers.go:36-41 | On an ascending list, the cited threshold is the first element, which is the lowest level reached and not the highest. |
| AlertHandlers.CrossingLines | assistant/alert_handlers.go:36-41 | At most one crossing line. There is none iff the price is below every threshold. The line carries the symbol, the price and a threshold of the list the price has reached. |
| AlertHandlers.BandLines | assistant/alert_handlers.go:42-55 | At most two band lines, none of them a crossing line, each with the ticker's symbol and price. There are none iff both changes are strictly inside their bands. |
| AlertHandlers.SymbolLines | assistant/alert_handlers.go:35-55 | At most three lines for one ticker, each with its symbol and price. |
| AlertHandlers.AtMostOneCrossing | assistant/alert_handlers.go:36-41 | A ticker gets one crossing line when a level is reached and none otherwise. The line cites the threshold `FirstCrossed` selects. |
| AlertHandlers.BandClassification | assistant/alert_handlers.go:42-55 | There is a 6-hour "up" line iff the change is ≥ 2 and a "down" line iff it is ≤ -2, never both, and neither strictly between. Likewise for the 24-hour change at ±5, where the line reports the 6-hour figure. |
| AlertHandlers.BandLinesFigures | assistant/alert_handlers.go:44-55 | A 6-hour line carries a change past ±2. A 24-hour line appears only past ±5 and carries the 6-hour change. |
| AlertHandlers.TwentyFourHourLineReportsSixHourChange | assistant/alert_handlers.go:50-52 | A 6% 24-hour rise with a flat 6 hours is announced with the figure 0. |
| AlertHandlers.FeedErrorAborts | assistant/alert_handlers.go:28-33 | A feed error at position k returns only the lines of the ids before k. |
| AlertHandlers.SkipsTickerWithoutQuote | assistant/alert_handlers.go:34 | A ticker without a USD quote adds no lines and does not stop the handler. |
| AlertHandlers.CryptoAlertAppend | assistant/alert_handlers.go:28-57 | While the feed answers, the handler's lines are each ticker's lines in visiting order. |
| AlertHandlers.CryptoAlert | assistant/alert_handlers.go:28-57 | At most three lines per visited ticker. Every line carries the symbol and USD price of a ticker the feed answered for. |
| AlertHandlers.CryptoAlertCrossingsBounded | assistant/alert_handlers.go:36-41 | Each visited ticker adds at most one crossing line. |
| AlertHandlers.CryptoAlertHandler | assistant/alert_handlers.go:26-59 | At most six lines and at most two crossing lines. Each line quotes one of the two configured tickers. |
| AlertHandlers.BitcoinAt12500 | assistant/alert_handlers.go:36-41 | Bitcoin at 12500 gives one crossing line citing 12000, not one line per level below the price. |
| Signal.PhoneGateAcceptsEitherTest | signal/signal.go:60-63 | A number is accepted iff it starts with the characters "+1" or is 12 bytes long. |
| Signal.PhoneRejected | signal/signal.go:60 | For an ASCII number, it is rejected iff it neither starts with "+1" nor has 12 characters. |
| Signal.TwelveWideCharactersRejected | signal/signal.go:60 | Twelve characters of three bytes each, such as full-width digits, are 36 bytes long and rejected. |
| Signal.OneCharacterNumberRefused | signal/signal.go:60-62 | The one-character number "é" is two bytes long, passes the slice, and fails with the format error. |
| Signal.PhoneGateIsLax | signal/signal.go:60 | "+1" and the twelve-character "hello, world" both pass the gate. |
| Signal.SendArgs | signal/signal.go:64-70 | The vector starts `--dbus send -m <text> <phone>`. It has length 5 without attachments, else 6+n with "-a" followed by the attachments in order. |
| Signal.SendArgsRoundTrip | signal/signal.go:64-70 | Text, recipient and attachments can be read back unchanged from the vector. |
| Signal.SendMessage | signal/signal.go:59-78 | A number at least two bytes long that the gate rejects fails with the format error quoting the number. Otherwise the result is that of running signal-cli with `SendArgs`. |
| Signal.RejectedNumberNeverExecutes | signal/signal.go:60-63 | For a rejected number the result does not depend on the command runner, so signal-cli is never invoked. |
| Signal.Listen | signal/signal.go:41-52 | At most one message per signal. Every forwarded message is the decoding of a non-receipt signal that decodes. A panic happens only on a too-short body. |
| Signal.ListenStep | signal/signal.go:41-51 | One turn panics only on a non-receipt with a too-short body. Otherwise a deliverable signal puts its message ahead of the later ones, and any other signal is skipped. |
| Signal.ListenAppend | signal/signal.go:41-51 | Skipped signals do not stop the loop. After a prefix that does not panic, the rest's messages follow the prefix's. |
| Signal.ListenForwardsInOrder | signal/signal.go:41-51 | When every signal is deliverable, all are forwarded in arrival order. |
| Signal.ReceiptsDropped | signal/signal.go:42-45 | A stream of read receipts forwards nothing. |
| Signal.VerifyConnection | signal/signal.go:117-134 | Succeeds iff the `ListNames` reply arrived and contains "org.asamk.Signal". Otherwise it returns the call error or "not found". |
| SignalMessage.NewMessageFromSignal | signal/message.go:28-52 | Decoding succeeds iff elements 0, 1, 3 and 4 are int64, string, string and string list, and it then copies them unchanged. Otherwise the result names the first failing element in the order 0, 1, 3, 4, and says whether it is missing or mistyped. |
| SignalMessage.DecodeMessageBody | signal/message.go:28-52 | Decoding the body signal-cli emits for a message gives the message back, whatever the group id. |
| SignalMessage.GroupIdIgnored | signal/message.go:34-40 | Element 2 of the body never affects the result. |
| Config.NormalizeFolder | main.go:24-26 | The result ends with '/' and has the folder as a prefix. It grows by one character iff the folder did not already end with '/'. |
| Config.NormalizeIdempotent | main.go:24-26 | Normalising twice equals normalising once. |
| Config.Startup | main.go:11-26 | Startup succeeds iff the owner number and folder are non-empty and the folder exists. Each failure has its own fatal message, checked in order. On success the owner is kept and the folder is the configured folder normalised. |
| Config.StartupFolderIsNormal | main.go:24-26 | The folder startup settles on is already normal: normalising it again changes nothing. |

## Left out

- D-Bus connection setup, signal subscription, launching the `signal-cli` daemon, and the `exec` of `signal-cli`. These are I/O; running the command is the `exec` oracle.
- Goroutines, the message channel, the ticker and `time.Sleep`. These only provide concurrency and timing. `Run` is modelled over a finite sequence of delivered messages, and `runAlerts` as one tick, with each pause recorded as a `Slept` event.
- The real work of `copy`, `ioutil.ReadDir` and `os.Stat`. They are the `copyFile`, `readDir` and `notExist` oracles. An oracle gives the same answer to the same question within one run.
- The coinpaprika HTTP client. It is the `feed` oracle.
- Nil fields of the feed's ticker. `cryptoAlertHandler` dereferences `Symbol`, `Price`, `PercentChange6h` and `PercentChange24h` without a check (assistant/alert_handlers.go:35-54). A nil one panics in the `runAlerts` goroutine and ends the process. `Quote` and `Ticker` always carry these values, so the model has no such path.
- `%.2f` formatting of prices, and the text of alert lines. An alert line is a value carrying the figures it prints.
- `%v` of the alert pointer in the send-failure report. It is rendered as `&{name handler}`, with the handler's printed address taken as given.
- `log` output. A log record accompanies each `Reported` event but is not modelled separately.
- The own send inside `errorHandler`. A `Reported(text)` event stands for the log record and the one send of `text` to the owner. The outcome of that send is only logged, so it is not modelled.
- The 64-bit range of the D-Bus timestamp. `Int64` carries an unbounded `int`.
- `assistant/alert.go`. It only declares the alert type and a one-entry table. Alerts are a sequence of `Alert` values whose handler results are supplied per tick.
- `src/main.go`. It is an earlier prototype of the transport and is not part of this model.
- The `commands` field that `NewAssistant` fills with `getAllCommands()`. Nothing reads it, so `Assistant` omits it.
- Config.Startup: it guarantees only a non-empty owner number. The model's send path requires at least two bytes (`Signal.TwoBytesLong`), because a one-byte owner makes every send panic.
- Env: `now` and `manualOrder` are fixed for a whole run. Go calls `time.Now()` for each send and may pick a fresh map order each time `getCommandManual` ranges over the table; the model gives every send of a run the same timestamp and every `!man` the same order.

=== FILE: alert_handlers.dfy ===
/** The crypto price alert rule (assistant/alert_handlers.go). The price feed is
    an oracle from ticker id to a feed result; prices and percentage changes are
    Dafny `real`s because the rule only compares them. The text of each line
    (`%.2f` formatting) is not modelled: a line is a value naming its kind and
    the figures it prints. */
module AlertHandlers {
  import opened GoLib

  const Change6h: real := 2.0
  const Change24h: real := 5.0

  const Bitcoin := "btc-bitcoin"
  const Ethereum := "eth-ethereum"

  /** `tickerThresholds`: the price levels announced for each ticker id. */
  const TickerThresholds: map<string, seq<real>> :=
    map[Bitcoin := [12000.0, 13000.0, 14000.0, 15000.0],
        Ethereum := [450.0, 500.0, 550.0, 600.0]]

  predicate StrictlyAscending(s: seq<real>)
  {
    forall i, j :: 0 <= i < j < |s| ==> s[i] < s[j]
  }

  /** Every ticker's threshold list is strictly ascending. */
  lemma ThresholdsAscending()
    ensures forall id :: id in TickerThresholds ==> StrictlyAscending(TickerThresholds[id])
  {
    assert TickerThresholds.Keys == {Bitcoin, Ethereum};
  }

  /** The USD quote of one ticker. Go reads each figure through a pointer that
      may be nil; the model always has a value. */
  datatype Quote = Quote(price: real, change6h: real, change24h: real)

  /** A ticker as the feed returns it: its display symbol and its USD quote, if any. */
  datatype Ticker = Ticker(symbol: string, usd: Option<Quote>)

  /** One line of the alert message. The figure printed by the 24-hour lines is
      `reported`: `cryptoAlertHandler` prints the 6-hour change there. */
  datatype AlertLine =
    | Crossed(symbol: string, threshold: real, price: real)
    | Rose6h(symbol: string, change: real, price: real)
    | Fell6h(symbol: string, change: real, price: real)
    | Rose24h(symbol: string, reported: real, price: real)
    | Fell24h(symbol: string, reported: real, price: real)

  /** The threshold loop: the first threshold, in list order, that the price has
      reached, or none. */
  function FirstCrossed(thresholds: seq<real>, price: real): (r: Option<real>)
    ensures r.None? <==> forall i :: 0 <= i < |thresholds| ==> price < thresholds[i]
    ensures r.Some? ==> exists i :: 0 <= i < |thresholds| && thresholds[i] == r.value
                                   && price >= r.value
                                   && forall j :: 0 <= j < i ==> price < thresholds[j]
  {
    if |thresholds| == 0 then None
    else if price >= thresholds[0] then Some(thresholds[0])
    else
      var r := FirstCrossed(thresholds[1..], price);
      assert forall i :: 1 <= i < |thresholds| ==> thresholds[i] == thresholds[1..][i - 1];
      r
  }

  /** On an ascending list the cited threshold is the lowest level reached, not
      the highest: any price at or above the first level cites the first level. */
  lemma CitedThresholdIsLowest(thresholds: seq<real>, price: real)
    requires StrictlyAscending(thresholds)
    ensures FirstCrossed(thresholds, price).Some? ==>
              |thresholds| > 0 && FirstCrossed(thresholds, price).value == thresholds[0]
    ensures FirstCrossed(thresholds, price).Some? ==>
              forall i :: 0 <= i < |thresholds| && price >= thresholds[i] ==>
                FirstCrossed(thresholds, price).value <= thresholds[i]
  {
  }

  /** The crossing line of one ticker: at most one, for the first level reached. */
  function CrossingLines(symbol: string, thresholds: seq<real>, price: real): (r: seq<AlertLine>)
    ensures |r| <= 1
    ensures r == [] <==> forall i :: 0 <= i < |thresholds| ==> price < thresholds[i]
    ensures |r| == 1 ==> && r[0].Crossed? && r[0].symbol == symbol && r[0].price == price
                         && r[0].threshold in thresholds && price >= r[0].threshold
  {
    match FirstCrossed(thresholds, price)
    case Some(t) => [Crossed(symbol, t, price)]
    case None => []
  }

  /** The 6-hour and 24-hour band lines of one ticker, each test on its own. */
  function BandLines(symbol: string, q: Quote): (r: seq<AlertLine>)
    ensures |r| <= 2
    ensures forall l :: l in r ==> !l.Crossed? && l.symbol == symbol && l.price == q.price
    ensures -Change6h < q.change6h < Change6h && -Change24h < q.change24h < Change24h <==> r == []
  {
    (if q.change6h >= Change6h then [Rose6h(symbol, q.change6h, q.price)] else [])
    + (if q.change6h <= -1.0 * Change6h then [Fell6h(symbol, q.change6h, q.price)] else [])
    + (if q.change24h >= Change24h then [Rose24h(symbol, q.change6h, q.price)] else [])
    + (if q.change24h <= -1.0 * Change24h then [Fell24h(symbol, q.change6h, q.price)] else [])
  }

  /** The lines for one ticker with a USD quote. */
  function SymbolLines(symbol: string, thresholds: seq<real>, q: Quote): (r: seq<AlertLine>)
    ensures |r| <= 3
    ensures forall l :: l in r ==> l.symbol == symbol && l.price == q.price
  {
    CrossingLines(symbol, thresholds, q.price) + BandLines(symbol, q)
  }

  function CountCrossed(lines: seq<AlertLine>): nat
  {
    if |lines| == 0 then 0 else (if lines[0].Crossed? then 1 else 0) + CountCrossed(lines[1..])
  }

  lemma {:induction false} CountCrossedAppend(a: seq<AlertLine>, b: seq<AlertLine>)
    ensures CountCrossed(a + b) == CountCrossed(a) + CountCrossed(b)
  {
    if |a| > 0 {
      assert (a + b)[1..] == a[1..] + b;
      CountCrossedAppend(a[1..], b);
    } else {
      assert a + b == b;
    }
  }

  lemma {:induction false} NoCrossedCount(lines: seq<AlertLine>)
    requires forall i :: 0 <= i < |lines| ==> !lines[i].Crossed?
    ensures CountCrossed(lines) == 0
  {
    if |lines| > 0 {
      NoCrossedCount(lines[1..]);
    }
  }

  /** Per ticker and call there is one crossing line exactly when some level is
      reached, and it cites the first level reached. */
  lemma AtMostOneCrossing(symbol: string, thresholds: seq<real>, q: Quote)
    ensures CountCrossed(SymbolLines(symbol, thresholds, q))
         == (if FirstCrossed(thresholds, q.price).Some? then 1 else 0)
    ensures forall l :: l in SymbolLines(symbol, thresholds, q) && l.Crossed? ==>
              FirstCrossed(thresholds, q.price) == Some(l.threshold)
  {
    var bands := BandLines(symbol, q);
    assert forall i :: 0 <= i < |bands| ==> !bands[i].Crossed?;
    CountCrossedAppend(CrossingLines(symbol, thresholds, q.price), bands);
    NoCrossedCount(bands);
  }

  /** A 6-hour "up" line iff the change is at least 2 and a "down" line iff it is
      at most -2; likewise for the 24-hour change at 5, where the line reports
      the 6-hour figure; up and down never both appear. */
  lemma BandClassification(symbol: string, thresholds: seq<real>, q: Quote)
    ensures var lines := SymbolLines(symbol, thresholds, q);
            && (Rose6h(symbol, q.change6h, q.price) in lines <==> q.change6h >= 2.0)
            && (Fell6h(symbol, q.change6h, q.price) in lines <==> q.change6h <= -2.0)
            && (Rose24h(symbol, q.change6h, q.price) in lines <==> q.change24h >= 5.0)
            && (Fell24h(symbol, q.change6h, q.price) in lines <==> q.change24h <= -5.0)
            && !(Rose6h(symbol, q.change6h, q.price) in lines && Fell6h(symbol, q.change6h, q.price) in lines)
            && (-2.0 < q.change6h < 2.0 ==> forall l :: l in lines ==> !l.Rose6h? && !l.Fell6h?)
    ensures forall l :: l in SymbolLines(symbol, thresholds, q) ==> BandFigures(l, q)
  {
    var crossing := CrossingLines(symbol, thresholds, q.price);
    var bands := BandLines(symbol, q);
    assert forall l :: l in crossing ==> l.Crossed?;
    assert forall l :: l in SymbolLines(symbol, thresholds, q) <==> l in crossing || l in bands;
    BandLinesFigures(symbol, q);
  }

  /** A band line's figures agree with the quote it came from: a 6-hour line
      carries a change past the 6-hour band, and a 24-hour line is present only
      past the 24-hour band and carries the 6-hour change. */
  predicate BandFigures(l: AlertLine, q: Quote)
  {
    && (l.Rose6h? ==> l.change >= 2.0) && (l.Fell6h? ==> l.change <= -2.0)
    && (l.Rose24h? ==> q.change24h >= 5.0 && l.reported == q.change6h)
    && (l.Fell24h? ==> q.change24h <= -5.0 && l.reported == q.change6h)
  }

  lemma BandLinesFigures(symbol: string, q: Quote)
    ensures forall l :: l in BandLines(symbol, q) ==> BandFigures(l, q)
  {
    var up6 := if q.change6h >= Change6h then [Rose6h(symbol, q.change6h, q.price)] else [];
    var down6 := if q.change6h <= -1.0 * Change6h then [Fell6h(symbol, q.change6h, q.price)] else [];
    var up24 := if q.change24h >= Change24h then [Rose24h(symbol, q.change6h, q.price)] else [];
    var down24 := if q.change24h <= -1.0 * Change24h then [Fell24h(symbol, q.change6h, q.price)] else [];
    assert BandLines(symbol, q) == up6 + down6 + up24 + down24;
  }

  /** The 24-hour lines print the 6-hour change: a 6% day with a flat 6 hours is
      announced as having "gone up by 0.00 in the last 24 hours". */
  lemma TwentyFourHourLineReportsSixHourChange()
    ensures SymbolLines("BTC", [], Quote(100.0, 0.0, 6.0)) == [Rose24h("BTC", 0.0, 100.0)]
  {
  }

  /** A feed response for one ticker id. */
  datatype FeedResult = FeedOk(ticker: Ticker) | FeedError(err: string)

  /** The loop of `cryptoAlertHandler` over the ids in `ids`: a feed error ends
      the whole handler with the lines gathered so far (skipping only the failed
      ticker looks intended), and a ticker without a USD quote contributes nothing. */
  function CryptoAlert(ids: seq<string>, feed: string -> FeedResult): (r: seq<AlertLine>)
    requires forall i :: 0 <= i < |ids| ==> ids[i] in TickerThresholds
    ensures |r| <= 3 * |ids|
    ensures forall l :: l in r ==> exists i :: 0 <= i < |ids| && Quotes(feed(ids[i]), l)
  {
    if |ids| == 0 then []
    else
      match feed(ids[0])
      case FeedError(_) => []
      case FeedOk(t) =>
        (match t.usd
         case Some(q) => SymbolLines(t.symbol, TickerThresholds[ids[0]], q)
         case None => [])
        + CryptoAlert(ids[1..], feed)
  }

  /** The line `l` is about the ticker of feed result `f`: it carries that
      ticker's symbol and USD price. */
  predicate Quotes(f: FeedResult, l: AlertLine)
  {
    f.FeedOk? && f.ticker.usd.Some? && l.symbol == f.ticker.symbol && l.price == f.ticker.usd.value.price
  }

  /** `cryptoAlertHandler`, visiting `tickerThresholds` in `order`: every line
      quotes one of the two configured tickers, and there is at most one
      crossing line per ticker. */
  function CryptoAlertHandler(order: seq<string>, feed: string -> FeedResult): (r: seq<AlertLine>)
    requires IterationOrder(order, TickerThresholds.Keys)
    ensures |r| <= 6
    ensures CountCrossed(r) <= 2
    ensures forall l :: l in r ==> exists id :: id in TickerThresholds && Quotes(feed(id), l)
  {
    assert TickerThresholds.Keys == {Bitcoin, Ethereum};
    EnumerationSize(order, TickerThresholds.Keys);
    CryptoAlertCrossingsBounded(order, feed);
    CryptoAlert(order, feed)
  }

  /** Each ticker contributes at most one crossing line to the handler's result. */
  lemma {:induction false} CryptoAlertCrossingsBounded(ids: seq<string>, feed: string -> FeedResult)
    requires forall i :: 0 <= i < |ids| ==> ids[i] in TickerThresholds
    ensures CountCrossed(CryptoAlert(ids, feed)) <= |ids|
  {
    if |ids| > 0 && feed(ids[0]).FeedOk? {
      var t := feed(ids[0]).ticker;
      var head := match t.usd
                  case Some(q) => SymbolLines(t.symbol, TickerThresholds[ids[0]], q)
                  case None => [];
      if t.usd.Some? {
        AtMostOneCrossing(t.symbol, TickerThresholds[ids[0]], t.usd.value);
      }
      CountCrossedAppend(head, CryptoAlert(ids[1..], feed));
      CryptoAlertCrossingsBounded(ids[1..], feed);
    }
  }

  /** A feed error for the id at position `k` aborts the whole handler: only the
      lines of the ids before it are returned, and the ids after it are never
      evaluated. */
  lemma {:induction false} FeedErrorAborts(ids: seq<string>, feed: string -> FeedResult, k: nat)
    requires forall i :: 0 <= i < |ids| ==> ids[i] in TickerThresholds
    requires k < |ids| && feed(ids[k]).FeedError?
    ensures CryptoAlert(ids, feed) == CryptoAlert(ids[..k], feed)
  {
    if k > 0 {
      assert ids[1..][..k - 1] == ids[..k][1..];
      FeedErrorAborts(ids[1..], feed, k - 1);
    }
  }

  /** A ticker without a USD quote is skipped: the handler's result is that of
      the remaining ids. */
  lemma SkipsTickerWithoutQuote(ids: seq<string>, feed: string -> FeedResult)
    requires forall i :: 0 <= i < |ids| ==> ids[i] in TickerThresholds
    requires |ids| > 0 && feed(ids[0]).FeedOk? && feed(ids[0]).ticker.usd.None?
    ensures CryptoAlert(ids, feed) == CryptoAlert(ids[1..], feed)
  {
  }

  /** When the feed answers every id, the handler's lines are those of each
      ticker in visiting order. */
  lemma {:induction false} CryptoAlertAppend(a: seq<string>, b: seq<string>, feed: string -> FeedResult)
    requires forall i :: 0 <= i < |a| ==> a[i] in TickerThresholds && feed(a[i]).FeedOk?
    requires forall i :: 0 <= i < |b| ==> b[i] in TickerThresholds
    ensures CryptoAlert(a + b, feed) == CryptoAlert(a, feed) + CryptoAlert(b, feed)
  {
    if |a| == 0 {
      assert a + b == b;
    } else {
      var t := feed(a[0]).ticker;
      var head := match t.usd
                  case Some(q) => SymbolLines(t.symbol, TickerThresholds[a[0]], q)
                  case None => [];
      assert (a + b)[0] == a[0];
      assert (a + b)[1..] == a[1..] + b;
      assert CryptoAlert(a + b, feed) == head + CryptoAlert(a[1..] + b, feed);
      CryptoAlertAppend(a[1..], b, feed);
      assert CryptoAlert(a, feed) == head + CryptoAlert(a[1..], feed);
      AppendAssoc(head, CryptoAlert(a[1..], feed), CryptoAlert(b, feed));
    }
  }

  /** The example of a price of 12500 for bitcoin: one crossing line citing
      12000, not one per level below the price. */
  lemma BitcoinAt12500()
    ensures SymbolLines("BTC", TickerThresholds[Bitcoin], Quote(12500.0, 0.0, 0.0))
         == [Crossed("BTC", 12000.0, 12500.0)]
  {
  }
}

=== FILE: assistant.dfy ===
/** The command and notification coordinator (assistant/assistant.go): message
    validation, parsing and routing, the decision logic of the four handlers,
    error reporting, the per-message loop of `Run` and one tick of `runAlerts`.
    Everything the coordinator does to the outside world appears as an `Event`
    of a trace; the filesystem, the signal-cli process and the clock are the
    oracles of an `Env`. */
module Assistant {
  import opened GoLib
  import opened SignalMessage
  import opened Commands
  import Signal

  /** A registered alert. `handlerAddress` is how `%v` prints its handler
      function (a code address), which the send-failure report quotes. */
  datatype Alert = Alert(name: string, handlerAddress: string)

  datatype Assistant = Assistant(owner: string, sharedFolder: string, alerts: seq<Alert>)

  /** A directory entry as `ioutil.ReadDir` reports it. */
  datatype FileInfo = FileInfo(name: string, size: nat)

  /** The outside world as the coordinator sees it. `copyFile` is the package's
      `copy`, `notExist(p)` is `os.IsNotExist` of `os.Stat(p)`'s error, `exec`
      runs `signal-cli` with the given arguments, `now` is `time.Now()` and
      `manualOrder` is the order the `!man` handler visits the command table in. */
  datatype Env = Env(
    now: int,
    copyFile: (string, string) -> Outcome,
    readDir: string -> Result<seq<FileInfo>>,
    notExist: string -> bool,
    exec: seq<string> -> Outcome,
    manualOrder: seq<string>)

  predicate ValidEnv(env: Env)
  {
    IterationOrder(env.manualOrder, Names)
  }

  /** What the coordinator does, in order. `Reported(text)` is one call of
      `errorHandler`: it logs `text` and sends it to the owner, and a failure of
      that send is only logged. `Slept` is the ten-second pause of `runAlerts`. */
  datatype Event =
    | Copied(src: string, dst: string)
    | Sent(msg: Message)
    | Reported(text: string)
    | Slept

  /** The effects of a handler and the error it returns. */
  datatype Step = Step(effects: seq<Event>, err: Outcome)

  /** What a handler may do: copy files and message the owner; never report an
      error itself or pause. */
  predicate HandlerEffects(a: Assistant, effects: seq<Event>)
  {
    forall e :: e in effects ==> !e.Reported? && !e.Slept? && (e.Sent? ==> e.msg.phone == a.owner)
  }

  const ValidateContext := "Failed to validate message,"
  const ExecuteContext := "Failed to execute command,"
  const UnknownNumber := "Message arrived from unknown number "
  const BadFormat := "Invalid command format. Must start with !. Message Text: "
  const InvalidCommand := "Invalid command, type !man to see a list of available commands."
  const NoAttachments := "No attachments to store."
  const TooManyAttachments := "Only one attachment supported at the moment."
  const SavedAt := "Saved attachment at "

  /** A handler that succeeds has ended by messaging the owner. */
  predicate Replied(a: Assistant, s: Step)
  {
    s.err.Pass? ==> |s.effects| > 0 && s.effects[|s.effects| - 1].Sent? && s.effects[|s.effects| - 1].msg.phone == a.owner
  }

  /** `errorHandler(context, err)`: the report is the context and the error
      text, separated by one space. */
  function ErrorReport(context: string, err: string): (e: Event)
    ensures e.Reported? && |e.text| == |context| + 1 + |err|
    ensures e.text[..|context|] == context && e.text[|context|] == ' ' && e.text[|context| + 1..] == err
  {
    Reported(context + " " + err)
  }

  /** `sendMessage`: a message to the owner, stamped with the current time. */
  function OwnerMessage(a: Assistant, env: Env, text: string, attachments: seq<string>): Message
  {
    Message(env.now, a.owner, text, attachments)
  }

  /** `sendMessage` as a handler's last step: one send, whose error is the handler's. */
  function SendStep(a: Assistant, env: Env, text: string, attachments: seq<string>): (s: Step)
    requires Signal.TwoBytesLong(a.owner)
    ensures s.effects == [Sent(OwnerMessage(a, env, text, attachments))]
    ensures s.err == Signal.SendMessage(OwnerMessage(a, env, text, attachments), env.exec)
    ensures HandlerEffects(a, s.effects)
  {
    var m := OwnerMessage(a, env, text, attachments);
    Step([Sent(m)], Signal.SendMessage(m, env.exec))
  }

  // ---------------------------------------------------------------------------
  // Validation, parsing and routing

  /** `validateMessage`: the sender check comes first, so a stranger's text is
      never looked at; then the text must start with '!'. */
  function ValidateMessage(a: Assistant, m: Message): (r: Outcome)
    ensures r.Pass? <==> m.phone == a.owner && |m.text| > 0 && m.text[0] == '!'
    ensures m.phone != a.owner ==> r == Fail(UnknownNumber + m.phone)
    ensures m.phone == a.owner && r.Fail? ==> r == Fail(BadFormat + m.text)
  {
    if m.phone != a.owner then Fail(UnknownNumber + m.phone)
    else if |m.text| == 0 || m.text[0] != '!' then Fail(BadFormat + m.text)
    else Pass
  }

  /** A stranger's message is rejected whatever its text. */
  lemma StrangerRejectedRegardlessOfText(a: Assistant, m: Message, text: string)
    requires m.phone != a.owner
    ensures ValidateMessage(a, m.(text := text)) == ValidateMessage(a, m)
    ensures ValidateMessage(a, m).Fail?
  {
  }

  /** The command built by `executeCommand`: the text before the first space
      and the remaining pieces of the single-space split, empty pieces kept. */
  function ParseCommand(text: string): (c: Command)
    ensures c.cmd == text[..FirstSpace(text)]
    ensures forall i :: 0 <= i < |c.args| ==> ' ' !in c.args[i]
    ensures |c.args| == 0 <==> ' ' !in text
    ensures Join([c.cmd] + c.args) == text
  {
    var parts := Split(text);
    JoinSplit(text);
    assert parts == [parts[0]] + parts[1..];
    Command(parts[0], "", parts[1..])
  }

  /** Any command name and space-free arguments are what parsing their
      space-separated rendering gives back. */
  lemma ParseCommandInvertsJoin(cmd: string, args: seq<string>)
    requires ' ' !in cmd
    requires forall i :: 0 <= i < |args| ==> ' ' !in args[i]
    ensures ParseCommand(Join([cmd] + args)) == Command(cmd, "", args)
  {
    var parts := [cmd] + args;
    forall k | 0 <= k < |parts| ensures ' ' !in parts[k] {
      if k > 0 { assert parts[k] == args[k - 1]; }
    }
    SplitJoin(parts);
    assert parts[1..] == args;
  }

  /** Where `executeCommand`'s switch sends a command, or the error it stops with. */
  datatype Route =
    | RouteStore(name: string, ext: string)
    | RouteList
    | RouteGet(names: seq<string>)
    | RouteMan
    | Rejected(error: string)

  /** The switch of `executeCommand` with its argument-count checks. */
  function RouteCommand(c: Command): (r: Route)
    ensures r.RouteStore? ==> c.cmd == Store && |c.args| >= 2
                              && r.name == c.args[0] && r.ext == c.args[1]
    ensures r.RouteGet? ==> c.cmd == Get && |c.args| >= 1 && r.names == c.args
    ensures r.RouteList? ==> c.cmd == List
    ensures r.RouteMan? ==> c.cmd == Man
    ensures c.cmd == Store && |c.args| < 2 ==> r == Rejected("Expected 2 arguments, got " + Itoa(|c.args|))
    ensures c.cmd == Get && |c.args| == 0 ==> r == Rejected("Expected at least 1 argument, got 0")
    ensures c.cmd !in Names ==> r == Rejected(InvalidCommand)
  {
    if c.cmd == Store then
      if |c.args| < 2 then Rejected("Expected 2 arguments, got " + Itoa(|c.args|))
      else RouteStore(c.args[0], c.args[1])
    else if c.cmd == List then RouteList
    else if c.cmd == Get then
      if |c.args| < 1 then Rejected("Expected at least 1 argument, got " + Itoa(|c.args|))
      else RouteGet(c.args)
    else if c.cmd == Man then RouteMan
    else Rejected(InvalidCommand)
  }

  /** The least number of arguments each registered command needs. */
  function MinArgs(cmd: string): nat
  {
    if cmd == Store then 2 else if cmd == Get then 1 else 0
  }

  /** Routing agrees with the registry: a command is dispatched to a handler iff
      its name is registered (exact, case-sensitive match) and it has at least
      the arguments that command needs. */
  lemma RouteAgreesWithRegistry(c: Command)
    ensures !RouteCommand(c).Rejected? <==> c.cmd in Table && |c.args| >= MinArgs(c.cmd)
  {
    InRegistry(c.cmd);
  }

  /** Extra `!store` arguments are ignored. */
  lemma StoreIgnoresExtraArgs(name: string, ext: string, extra: seq<string>)
    ensures RouteCommand(Command(Store, "", [name, ext] + extra)) == RouteStore(name, ext)
  {
  }

  /** Matching is case-sensitive: "!STORE" is not a command. */
  lemma MatchIsCaseSensitive(args: seq<string>)
    ensures RouteCommand(Command("!STORE", "", args)) == Rejected(InvalidCommand)
  {
    RegistryShape();
    assert "!STORE" != Store;
  }

  // ---------------------------------------------------------------------------
  // Handlers

  /** Where `!store name ext` puts the attachment. */
  function StorePath(folder: string, name: string, ext: string): string
  {
    folder + name + "." + ext
  }

  /** `storeAttachments`: exactly one attachment is copied to the shared folder,
      and a confirmation naming the path is sent when the copy succeeds. */
  function StoreAttachments(a: Assistant, env: Env, attachments: seq<string>, name: string, ext: string): (s: Step)
    requires Signal.TwoBytesLong(a.owner)
    ensures |attachments| == 0 ==> s == Step([], Fail(NoAttachments))
    ensures |attachments| > 1 ==> s == Step([], Fail(TooManyAttachments))
    ensures |attachments| == 1 ==>
              var dst := StorePath(a.sharedFolder, name, ext);
              && |s.effects| >= 1
              && s.effects[0] == Copied(attachments[0], dst)
              && (env.copyFile(attachments[0], dst).Fail? ==>
                    s == Step([Copied(attachments[0], dst)], env.copyFile(attachments[0], dst)))
              && (env.copyFile(attachments[0], dst).Pass? ==>
                    var confirmation := OwnerMessage(a, env, SavedAt + dst, []);
                    s == Step([Copied(attachments[0], dst), Sent(confirmation)],
                              Signal.SendMessage(confirmation, env.exec)))
    ensures Replied(a, s)
    ensures HandlerEffects(a, s.effects)
  {
    if |attachments| == 0 then Step([], Fail(NoAttachments))
    else if |attachments| > 1 then Step([], Fail(TooManyAttachments))
    else
      var dst := StorePath(a.sharedFolder, name, ext);
      var copied := env.copyFile(attachments[0], dst);
      if copied.Fail? then Step([Copied(attachments[0], dst)], copied)
      else
        var sent := SendStep(a, env, SavedAt + dst, []);
        Step([Copied(attachments[0], dst)] + sent.effects, sent.err)
  }

  /** A stored file is where `!get name.ext` looks for it. */
  lemma StoredFileIsRetrievable(folder: string, name: string, ext: string)
    ensures StorePath(folder, name, ext) == RequestPath(folder, name + "." + ext)
  {
  }

  /** One line of the `!list` reply. */
  function ListingLine(f: FileInfo): string
  {
    f.name + ", size: " + Itoa(f.size) + "\n"
  }

  function ListingLines(files: seq<FileInfo>): (lines: seq<string>)
    ensures |lines| == |files|
    ensures forall i :: 0 <= i < |files| ==> lines[i] == ListingLine(files[i])
  {
    seq(|files|, i requires 0 <= i < |files| => ListingLine(files[i]))
  }

  /** `listSharedFiles`: a directory read error is returned unsent; otherwise
      one reply lists every entry. */
  function ListSharedFiles(a: Assistant, env: Env): (s: Step)
    requires Signal.TwoBytesLong(a.owner)
    ensures env.readDir(a.sharedFolder).Err? ==> s == Step([], Fail(env.readDir(a.sharedFolder).error))
    ensures env.readDir(a.sharedFolder).Ok? ==>
              && |s.effects| == 1 && s.effects[0].Sent?
              && s.effects[0].msg.attachments == []
              && var text := s.effects[0].msg.text;
                 var header := "All files in " + a.sharedFolder + "\n";
                 && s.effects[0] == Sent(OwnerMessage(a, env, text, []))
                 && s.err == Signal.SendMessage(OwnerMessage(a, env, text, []), env.exec)
                 && |text| >= |header| && text[..|header|] == header
                 && text[|header|..] == Concat(ListingLines(env.readDir(a.sharedFolder).value))
                 && forall f :: f in env.readDir(a.sharedFolder).value ==> Contains(text, ListingLine(f))
    ensures Replied(a, s)
    ensures HandlerEffects(a, s.effects)
    ensures forall e :: e in s.effects ==> !e.Copied?
  {
    match env.readDir(a.sharedFolder)
    case Err(e) => Step([], Fail(e))
    case Ok(files) =>
      var header := "All files in " + a.sharedFolder + "\n";
      var body := Concat(ListingLines(files));
      forall f | f in files ensures Contains(header + body, ListingLine(f)) {
        var i :| 0 <= i < |files| && files[i] == f;
        ConcatContainsPart(ListingLines(files), i);
        var j :| 0 <= j <= |body| && OccursAt(body, ListingLine(f), j);
        OccursAfterPrefix(header, body, ListingLine(f), j);
      }
      assert (header + body)[..|header|] == header;
      assert (header + body)[|header|..] == body;
      SendStep(a, env, header + body, [])
  }

  /** Where `!get name` looks for `name`. */
  function RequestPath(folder: string, name: string): string
  {
    folder + name
  }

  /** The requested paths that exist, in request order. */
  function FoundPaths(folder: string, names: seq<string>, notExist: string -> bool): seq<string>
  {
    if |names| == 0 then []
    else
      var last := RequestPath(folder, names[|names| - 1]);
      FoundPaths(folder, names[..|names| - 1], notExist) + (if !notExist(last) then [last] else [])
  }

  /** The requested paths that do not exist, in request order. */
  function MissingPaths(folder: string, names: seq<string>, notExist: string -> bool): seq<string>
  {
    if |names| == 0 then []
    else
      var last := RequestPath(folder, names[|names| - 1]);
      MissingPaths(folder, names[..|names| - 1], notExist) + (if notExist(last) then [last] else [])
  }

  function Notice(path: string): string
  {
    "Unable to find " + path + "."
  }

  /** The notices for `paths`, run together in order. */
  function Notices(paths: seq<string>): string
  {
    if |paths| == 0 then "" else Notices(paths[..|paths| - 1]) + Notice(paths[|paths| - 1])
  }

  /** The loop of `returnFile`: each requested name either becomes an
      attachment or adds a notice to the reply text. */
  method CollectRequested(folder: string, names: seq<string>, notExist: string -> bool)
    returns (attachments: seq<string>, message: string)
    ensures attachments == FoundPaths(folder, names, notExist)
    ensures message == Notices(MissingPaths(folder, names, notExist))
  {
    attachments := [];
    message := "";
    var i := 0;
    while i < |names|
      invariant 0 <= i <= |names|
      invariant attachments == FoundPaths(folder, names[..i], notExist)
      invariant message == Notices(MissingPaths(folder, names[..i], notExist))
    {
      assert names[..i + 1][..i] == names[..i];
      var fullPath := RequestPath(folder, names[i]);
      var missing := MissingPaths(folder, names[..i], notExist);
      assert names[..i + 1][i] == names[i];
      if !notExist(fullPath) {
        assert MissingPaths(folder, names[..i + 1], notExist) == missing + [];
        assert missing + [] == missing;
        attachments := attachments + [fullPath];
      } else {
        assert MissingPaths(folder, names[..i + 1], notExist) == missing + [fullPath];
        assert (missing + [fullPath])[..|missing|] == missing;
        message := message + Notice(fullPath);
      }
      i := i + 1;
    }
    assert names[..i] == names;
  }

  /** The paths of all requested names, in request order. */
  function RequestPaths(folder: string, names: seq<string>): (paths: seq<string>)
    ensures |paths| == |names|
    ensures forall i :: 0 <= i < |names| ==> paths[i] == RequestPath(folder, names[i])
  {
    seq(|names|, i requires 0 <= i < |names| => RequestPath(folder, names[i]))
  }

  lemma RequestPathsSnoc(folder: string, names: seq<string>)
    requires |names| > 0
    ensures RequestPaths(folder, names)
         == RequestPaths(folder, names[..|names| - 1]) + [RequestPath(folder, names[|names| - 1])]
  {
  }

  /** Every requested name is accounted for exactly once: its path is either
      attached (when it exists) or reported missing (when it does not). */
  lemma {:induction false} RequestsPartitioned(folder: string, names: seq<string>, notExist: string -> bool)
    ensures multiset(FoundPaths(folder, names, notExist)) + multiset(MissingPaths(folder, names, notExist))
         == multiset(RequestPaths(folder, names))
    ensures forall p :: p in FoundPaths(folder, names, notExist) ==> !notExist(p)
    ensures forall p :: p in MissingPaths(folder, names, notExist) ==> notExist(p)
  {
    if |names| > 0 {
      var front := names[..|names| - 1];
      var last := RequestPath(folder, names[|names| - 1]);
      var found := FoundPaths(folder, front, notExist);
      var missing := MissingPaths(folder, front, notExist);
      RequestsPartitioned(folder, front, notExist);
      RequestPathsSnoc(folder, names);
      if notExist(last) {
        assert FoundPaths(folder, names, notExist) == found + [];
        assert found + [] == found;
        assert MissingPaths(folder, names, notExist) == missing + [last];
      } else {
        assert FoundPaths(folder, names, notExist) == found + [last];
        assert MissingPaths(folder, names, notExist) == missing + [];
        assert missing + [] == missing;
      }
    }
  }

  /** Request order is kept on both sides: the outcome for a request list is
      the outcome for its first part followed by that for the rest. */
  lemma {:induction false} RequestsKeepOrder(folder: string, n1: seq<string>, n2: seq<string>, notExist: string -> bool)
    ensures FoundPaths(folder, n1 + n2, notExist) == FoundPaths(folder, n1, notExist) + FoundPaths(folder, n2, notExist)
    ensures MissingPaths(folder, n1 + n2, notExist) == MissingPaths(folder, n1, notExist) + MissingPaths(folder, n2, notExist)
    decreases |n2|
  {
    if |n2| == 0 {
      assert n1 + n2 == n1;
    } else {
      var front := n2[..|n2| - 1];
      assert (n1 + n2)[..|n1 + n2| - 1] == n1 + front;
      assert (n1 + n2)[|n1 + n2| - 1] == n2[|n2| - 1];
      RequestsKeepOrder(folder, n1, front, notExist);
    }
  }

  /** `returnFile`: one reply carrying every found file and a notice for every
      missing one, sent even when nothing was found. */
  function ReturnFile(a: Assistant, env: Env, names: seq<string>): (s: Step)
    requires Signal.TwoBytesLong(a.owner)
    ensures |s.effects| == 1
    ensures s.effects[0] == Sent(OwnerMessage(a, env, Notices(MissingPaths(a.sharedFolder, names, env.notExist)),
                                              FoundPaths(a.sharedFolder, names, env.notExist)))
    ensures s.err == Signal.SendMessage(s.effects[0].msg, env.exec)
    ensures Replied(a, s)
    ensures HandlerEffects(a, s.effects)
    ensures forall e :: e in s.effects ==> !e.Copied?
  {
    SendStep(a, env, Notices(MissingPaths(a.sharedFolder, names, env.notExist)),
             FoundPaths(a.sharedFolder, names, env.notExist))
  }

  /** `!get ` with a trailing space asks for the empty name, whose path is the
      shared folder itself; the folder exists, so the folder is attached. */
  lemma TrailingSpaceAttachesFolder(a: Assistant, env: Env)
    requires Signal.TwoBytesLong(a.owner) && !env.notExist(a.sharedFolder)
    ensures RouteCommand(ParseCommand(Get + " ")) == RouteGet([""])
    ensures ReturnFile(a, env, [""]).effects[0].msg.attachments == [a.sharedFolder]
  {
    var text := Get + " ";
    assert Get == ['!', 'g', 'e', 't'];
    FirstSpaceOfJoined(Get, "");
    assert Get + " " + "" == text;
    var parts := Split(text);
    assert parts[0] == Get;
    SplitJoin(["!get", ""]);
    assert Join(["!get", ""]) == text;
    assert a.sharedFolder + "" == a.sharedFolder;
    assert [""][..0] == [];
    assert FoundPaths(a.sharedFolder, [""], env.notExist) == [] + [a.sharedFolder];
  }

  /** `returnManual`. */
  function ReturnManual(a: Assistant, env: Env): (s: Step)
    requires Signal.TwoBytesLong(a.owner) && ValidEnv(env)
    ensures |s.effects| == 1 && s.effects[0] == Sent(OwnerMessage(a, env, GetCommandManual(env.manualOrder), []))
    ensures s.err == Signal.SendMessage(s.effects[0].msg, env.exec)
    ensures forall c :: c in Names ==> Contains(s.effects[0].msg.text, Segment(c, Table[c]))
    ensures forall c :: c in Names ==> Contains(s.effects[0].msg.text, c)
    ensures Replied(a, s)
    ensures HandlerEffects(a, s.effects)
    ensures forall e :: e in s.effects ==> !e.Copied?
  {
    KeysAreNames();
    SendStep(a, env, GetCommandManual(env.manualOrder), [])
  }

  // ---------------------------------------------------------------------------
  // Dispatch

  /** `executeCommand`. Handlers never call `errorHandler` or sleep, and a
      rejected command fails before any handler runs. */
  function ExecuteCommand(a: Assistant, env: Env, m: Message): (s: Step)
    requires Signal.TwoBytesLong(a.owner) && ValidEnv(env)
    ensures Replied(a, s)
    ensures HandlerEffects(a, s.effects)
    ensures RouteCommand(ParseCommand(m.text)).Rejected? ==>
              s == Step([], Fail(RouteCommand(ParseCommand(m.text)).error))
    ensures !RouteCommand(ParseCommand(m.text)).RouteStore? ==> forall e :: e in s.effects ==> !e.Copied?
    ensures var r := RouteCommand(ParseCommand(m.text));
            && (r.RouteStore? ==> s == StoreAttachments(a, env, m.attachments, r.name, r.ext))
            && (r.RouteList? ==> s == ListSharedFiles(a, env))
            && (r.RouteGet? ==> s == ReturnFile(a, env, r.names))
            && (r.RouteMan? ==> s == ReturnManual(a, env))
  {
    match RouteCommand(ParseCommand(m.text))
    case RouteStore(name, ext) => StoreAttachments(a, env, m.attachments, name, ext)
    case RouteList => ListSharedFiles(a, env)
    case RouteGet(names) => ReturnFile(a, env, names)
    case RouteMan => ReturnManual(a, env)
    case Rejected(e) => Step([], Fail(e))
  }

  /** Whether handling `m` ends in an error report. */
  predicate Fails(a: Assistant, env: Env, m: Message)
    requires Signal.TwoBytesLong(a.owner) && ValidEnv(env)
  {
    ValidateMessage(a, m).Fail? || ExecuteCommand(a, env, m).err.Fail?
  }

  /** The trace ends with a message to the owner or an error report. */
  predicate Answered(trace: seq<Event>)
  {
    |trace| > 0 && (trace[|trace| - 1].Sent? || trace[|trace| - 1].Reported?)
  }

  /** One turn of the loop in `Run`. Every message gets an answer: the turn ends
      with an error report when the message fails, and with a handler's message
      to the owner when it does not. */
  function ProcessMessage(a: Assistant, env: Env, m: Message): (trace: seq<Event>)
    requires Signal.TwoBytesLong(a.owner) && ValidEnv(env)
    ensures |trace| > 0
    ensures Fails(a, env, m) ==> trace[|trace| - 1].Reported?
    ensures !Fails(a, env, m) ==> trace[|trace| - 1].Sent? && trace[|trace| - 1].msg.phone == a.owner
    ensures ValidateMessage(a, m).Fail? ==> trace == [ErrorReport(ValidateContext, ValidateMessage(a, m).error)]
    ensures ValidateMessage(a, m).Pass? ==> ExecuteCommand(a, env, m).effects <= trace
    ensures !Fails(a, env, m) ==> trace == ExecuteCommand(a, env, m).effects
    ensures Answered(trace)
  {
    match ValidateMessage(a, m)
    case Fail(e) => [ErrorReport(ValidateContext, e)]
    case Pass =>
      var s := ExecuteCommand(a, env, m);
      if s.err.Fail? then s.effects + [ErrorReport(ExecuteContext, s.err.error)]
      else s.effects
  }

  /** The error reports of a trace, in order. */
  function Reports(trace: seq<Event>): (r: seq<Event>)
    ensures forall e :: e in r ==> e.Reported?
  {
    if |trace| == 0 then []
    else (if trace[0].Reported? then [trace[0]] else []) + Reports(trace[1..])
  }

  lemma {:induction false} ReportsAppend(t1: seq<Event>, t2: seq<Event>)
    ensures Reports(t1 + t2) == Reports(t1) + Reports(t2)
  {
    if |t1| == 0 {
      assert t1 + t2 == t2;
    } else {
      assert (t1 + t2)[1..] == t1[1..] + t2;
      ReportsAppend(t1[1..], t2);
    }
  }

  lemma {:induction false} NoReports(trace: seq<Event>)
    requires forall e :: e in trace ==> !e.Reported?
    ensures Reports(trace) == []
  {
    if |trace| > 0 {
      assert trace[0] in trace;
      NoReports(trace[1..]);
    }
  }

  /** Each message yields exactly one error report when it fails validation or
      execution, naming the stage and the error, and none otherwise; a message
      that fails validation does nothing else. */
  lemma OneReportPerFailure(a: Assistant, env: Env, m: Message)
    requires Signal.TwoBytesLong(a.owner) && ValidEnv(env)
    ensures var trace := ProcessMessage(a, env, m);
            && (ValidateMessage(a, m).Fail? ==>
                  Reports(trace) == trace == [Reported(ValidateContext + " " + ValidateMessage(a, m).error)])
            && (ValidateMessage(a, m).Pass? && ExecuteCommand(a, env, m).err.Fail? ==>
                  Reports(trace) == [Reported(ExecuteContext + " " + ExecuteCommand(a, env, m).err.error)])
            && (!Fails(a, env, m) ==> Reports(trace) == [])
  {
    var trace := ProcessMessage(a, env, m);
    if ValidateMessage(a, m).Pass? {
      var s := ExecuteCommand(a, env, m);
      NoReports(s.effects);
      var tail := if s.err.Fail? then [ErrorReport(ExecuteContext, s.err.error)] else [];
      ReportsAppend(s.effects, tail);
      assert Reports(tail) == tail;
    }
  }

  /** The loop of `Run` over the messages delivered so far: every message is
      handled, in delivery order, whatever happened to the previous ones. */
  function Run(a: Assistant, env: Env, msgs: seq<Message>): (trace: seq<Event>)
    requires Signal.TwoBytesLong(a.owner) && ValidEnv(env)
    ensures |trace| >= |msgs|
    ensures |msgs| > 0 ==> Answered(trace)
  {
    if |msgs| == 0 then []
    else
      var head := ProcessMessage(a, env, msgs[0]);
      var rest := Run(a, env, msgs[1..]);
      assert |rest| == 0 ==> head + rest == head;
      assert |rest| > 0 ==> (head + rest)[|head + rest| - 1] == rest[|rest| - 1];
      head + rest
  }

  function CountFailures(a: Assistant, env: Env, msgs: seq<Message>): nat
    requires Signal.TwoBytesLong(a.owner) && ValidEnv(env)
  {
    if |msgs| == 0 then 0 else (if Fails(a, env, msgs[0]) then 1 else 0) + CountFailures(a, env, msgs[1..])
  }

  /** Over any run, there are exactly as many error reports as failed messages. */
  lemma {:induction false} RunReportsEveryFailureOnce(a: Assistant, env: Env, msgs: seq<Message>)
    requires Signal.TwoBytesLong(a.owner) && ValidEnv(env)
    ensures |Reports(Run(a, env, msgs))| == CountFailures(a, env, msgs)
  {
    if |msgs| > 0 {
      OneReportPerFailure(a, env, msgs[0]);
      ReportsAppend(ProcessMessage(a, env, msgs[0]), Run(a, env, msgs[1..]));
      RunReportsEveryFailureOnce(a, env, msgs[1..]);
    }
  }

  /** The loop never stops early: a run over two batches is the run over the
      first followed by the run over the second. */
  lemma {:induction false} RunContinues(a: Assistant, env: Env, m1: seq<Message>, m2: seq<Message>)
    requires Signal.TwoBytesLong(a.owner) && ValidEnv(env)
    ensures Run(a, env, m1 + m2) == Run(a, env, m1) + Run(a, env, m2)
  {
    if |m1| == 0 {
      assert m1 + m2 == m2;
    } else {
      var head := ProcessMessage(a, env, m1[0]);
      assert (m1 + m2)[0] == m1[0];
      assert (m1 + m2)[1..] == m1[1..] + m2;
      assert Run(a, env, m1 + m2) == head + Run(a, env, m1[1..] + m2);
      RunContinues(a, env, m1[1..], m2);
      assert Run(a, env, m1) == head + Run(a, env, m1[1..]);
      AppendAssoc(head, Run(a, env, m1[1..]), Run(a, env, m2));
    }
  }

  /** Only the owner is ever messaged by the dispatch loop. */
  lemma {:induction false} RunMessagesOnlyOwner(a: Assistant, env: Env, msgs: seq<Message>)
    requires Signal.TwoBytesLong(a.owner) && ValidEnv(env)
    ensures forall e :: e in Run(a, env, msgs) && e.Sent? ==> e.msg.phone == a.owner
  {
    if |msgs| > 0 {
      RunMessagesOnlyOwner(a, env, msgs[1..]);
    }
  }

  // ---------------------------------------------------------------------------
  // Alerts

  /** `%v` of an alert pointer: `&{name handler}`. */
  function Rendered(alert: Alert): string
  {
    "&{" + alert.name + " " + alert.handlerAddress + "}"
  }

  /** The context `runAlerts` hands `errorHandler` when an alert's message cannot
      be sent: the alert printed with `%v`, followed by the word "alert". */
  function AlertSendContext(alert: Alert): string
  {
    "Error occured while trying to send message during " + Rendered(alert) + " alert"
  }

  /** One alert's turn in a tick of `runAlerts`, given what its handler returned. */
  function AlertTurn(a: Assistant, env: Env, alert: Alert, output: string): (trace: seq<Event>)
    requires Signal.TwoBytesLong(a.owner) || output == ""
    ensures output == "" <==> trace == []
    ensures output != "" ==> trace[0] == Sent(OwnerMessage(a, env, output, [])) && trace[|trace| - 1] == Slept
    ensures |trace| <= 3
    ensures forall e :: e in trace ==> !e.Copied? && (e.Sent? ==> e == Sent(OwnerMessage(a, env, output, [])))
    ensures output != "" && Signal.SendMessage(OwnerMessage(a, env, output, []), env.exec).Pass? ==>
              trace == [Sent(OwnerMessage(a, env, output, [])), Slept]
  {
    if output == "" then []
    else
      var m := OwnerMessage(a, env, output, []);
      var sent := Signal.SendMessage(m, env.exec);
      [Sent(m)]
      + (if sent.Fail? then [ErrorReport(AlertSendContext(alert), sent.error)] else [])
      + [Slept]
  }

  /** One tick over the alerts in registration order; `outputs[i]` is what the
      handler of `alerts[i]` returned. */
  function Tick(a: Assistant, env: Env, alerts: seq<Alert>, outputs: seq<string>): (trace: seq<Event>)
    requires |alerts| == |outputs|
    requires Signal.TwoBytesLong(a.owner) || forall i :: 0 <= i < |outputs| ==> outputs[i] == ""
    ensures |trace| <= 3 * |alerts|
    ensures (forall i :: 0 <= i < |outputs| ==> outputs[i] == "") ==> trace == []
    ensures forall e :: e in trace ==> !e.Copied?
    ensures forall e :: e in trace && e.Sent? ==> e.msg.phone == a.owner && e.msg.attachments == [] && e.msg.time == env.now
  {
    if |alerts| == 0 then []
    else AlertTurn(a, env, alerts[0], outputs[0]) + Tick(a, env, alerts[1..], outputs[1..])
  }

  /** One tick of `runAlerts` over the assistant's registered alerts. */
  function RunAlertsTick(a: Assistant, env: Env, outputs: seq<string>): (trace: seq<Event>)
    requires |a.alerts| == |outputs|
    requires Signal.TwoBytesLong(a.owner) || forall i :: 0 <= i < |outputs| ==> outputs[i] == ""
    ensures SentTexts(trace) == NonEmpty(outputs)
    ensures CountSlept(trace) == |NonEmpty(outputs)|
  {
    TickSendsNonEmptyInOrder(a, env, a.alerts, outputs);
    Tick(a, env, a.alerts, outputs)
  }

  /** The non-empty outputs, in order. */
  function NonEmpty(outputs: seq<string>): (r: seq<string>)
    ensures forall i :: 0 <= i < |r| ==> r[i] != ""
  {
    if |outputs| == 0 then []
    else (if outputs[0] != "" then [outputs[0]] else []) + NonEmpty(outputs[1..])
  }

  /** The texts sent in a trace, in order. */
  function SentTexts(trace: seq<Event>): seq<string>
  {
    if |trace| == 0 then []
    else (if trace[0].Sent? then [trace[0].msg.text] else []) + SentTexts(trace[1..])
  }

  function CountSlept(trace: seq<Event>): nat
  {
    if |trace| == 0 then 0 else (if trace[0].Slept? then 1 else 0) + CountSlept(trace[1..])
  }

  lemma {:induction false} SentTextsAppend(t1: seq<Event>, t2: seq<Event>)
    ensures SentTexts(t1 + t2) == SentTexts(t1) + SentTexts(t2)
    ensures CountSlept(t1 + t2) == CountSlept(t1) + CountSlept(t2)
  {
    if |t1| == 0 {
      assert t1 + t2 == t2;
    } else {
      assert (t1 + t2)[1..] == t1[1..] + t2;
      SentTextsAppend(t1[1..], t2);
    }
  }

  lemma AlertTurnShape(a: Assistant, env: Env, alert: Alert, output: string)
    requires Signal.TwoBytesLong(a.owner) || output == ""
    ensures SentTexts(AlertTurn(a, env, alert, output)) == (if output != "" then [output] else [])
    ensures CountSlept(AlertTurn(a, env, alert, output)) == (if output != "" then 1 else 0)
  {
    if output != "" {
      var trace := AlertTurn(a, env, alert, output);
      var m := OwnerMessage(a, env, output, []);
      var mid := if Signal.SendMessage(m, env.exec).Fail?
                 then [ErrorReport(AlertSendContext(alert), Signal.SendMessage(m, env.exec).error)]
                 else [];
      assert trace == [Sent(m)] + (mid + [Slept]);
      SentTextsAppend([Sent(m)], mid + [Slept]);
      SentTextsAppend(mid, [Slept]);
    }
  }

  /** In one tick exactly the non-empty results are sent, in registration
      order, and one pause follows each of them. */
  lemma {:induction false} TickSendsNonEmptyInOrder(a: Assistant, env: Env, alerts: seq<Alert>, outputs: seq<string>)
    requires |alerts| == |outputs|
    requires Signal.TwoBytesLong(a.owner) || forall i :: 0 <= i < |outputs| ==> outputs[i] == ""
    ensures SentTexts(Tick(a, env, alerts, outputs)) == NonEmpty(outputs)
    ensures CountSlept(Tick(a, env, alerts, outputs)) == |NonEmpty(outputs)|
  {
    if |alerts| > 0 {
      AlertTurnShape(a, env, alerts[0], outputs[0]);
      TickSendsNonEmptyInOrder(a, env, alerts[1..], outputs[1..]);
      SentTextsAppend(AlertTurn(a, env, alerts[0], outputs[0]), Tick(a, env, alerts[1..], outputs[1..]));
    }
  }

  /** A failed send is reported and the tick goes on: the remaining alerts get
      their turns whatever happened to the earlier ones. */
  lemma {:induction false} TickContinues(a: Assistant, env: Env, al1: seq<Alert>, o1: seq<string>,
                                         al2: seq<Alert>, o2: seq<string>)
    requires |al1| == |o1| && |al2| == |o2|
    requires Signal.TwoBytesLong(a.owner)
    ensures Tick(a, env, al1 + al2, o1 + o2) == Tick(a, env, al1, o1) + Tick(a, env, al2, o2)
  {
    if |al1| == 0 {
      assert al1 + al2 == al2 && o1 + o2 == o2;
    } else {
      assert (al1 + al2)[0] == al1[0] && (o1 + o2)[0] == o1[0];
      assert (al1 + al2)[1..] == al1[1..] + al2 && (o1 + o2)[1..] == o1[1..] + o2;
      TickContinues(a, env, al1[1..], o1[1..], al2, o2);
    }
  }

  /** A send that fails during an alert produces one report naming the alert. */
  lemma FailedAlertSendIsReported(a: Assistant, env: Env, alert: Alert, output: string)
    requires Signal.TwoBytesLong(a.owner) && output != ""
    requires Signal.SendMessage(OwnerMessage(a, env, output, []), env.exec).Fail?
    ensures Reports(AlertTurn(a, env, alert, output))
         == [Reported("Error occured while trying to send message during " + Rendered(alert) + " alert "
                      + Signal.SendMessage(OwnerMessage(a, env, output, []), env.exec).error)]
  {
    var m := OwnerMessage(a, env, output, []);
    var err := Signal.SendMessage(m, env.exec).error;
    var e := ErrorReport(AlertSendContext(alert), err);
    var lead := "Error occured while trying to send message during " + Rendered(alert);
    assert " alert" + " " == " alert ";
    AppendAssoc(lead, " alert", " ");
    AppendAssoc(lead + " alert", " ", err);
    AppendAssoc(lead, " alert ", err);
    assert e.text == lead + " alert " + err;
    var trace := AlertTurn(a, env, alert, output);
    assert trace == [Sent(m)] + ([e] + [Slept]);
    ReportsAppend([Sent(m)], [e] + [Slept]);
    ReportsAppend([e], [Slept]);
  }
}

=== FILE: commands.dfy ===
/** The command registry and the manual rendered from it (assistant/commands.go). */
module Commands {
  import opened GoLib

  const Store := "!store"
  const Get := "!get"
  const List := "!list"
  const Man := "!man"

  const StoreDescription :=
    "Store an attachment in the shared folder.\n" +
    "Must provide 2 arguments: name and file type, separated by spaces.\n" +
    "Currently only supports 1 attachment at a time."
  const GetDescription :=
    "Retrieve a file from the shared folder.\n" +
    "Must provide at least 1 argument: the complete file name.\n" +
    "If more than 1 argument is provided the assistant will attempt\n" +
    "to return all files listed. Arguments must be space separated.\n" +
    "Currently multiple attachments can only be returned if they are\n" +
    "of a similar file type (such as png and jpg, png and pdf will only return the first one)."
  const ListDescription := "List all files in the shared folder."
  const ManDescription := "List all commands and their descriptions."

  /** The `commands` table: command name to description. */
  const Table: map<string, string> :=
    map[Store := StoreDescription, Get := GetDescription, List := ListDescription, Man := ManDescription]

  /** The registered command names, the key set of `Table` (`KeysAreNames`).
      It is spelled out separately so that contracts which only ask whether a
      name is registered do not bring the long description literals of
      `Table` into their proofs. */
  const Names: set<string> := {Store, Get, List, Man}

  /** A command name with its description and the arguments it was given. */
  datatype Command = Command(cmd: string, description: string, args: seq<string>)

  /** The registry holds exactly the four command names, all distinct, each
      starting with the command prefix and mapped to its own description. */
  lemma RegistryShape()
    ensures Table.Keys == Names
    ensures |Table.Keys| == 4
    ensures forall c :: c in Table ==> |c| > 0 && c[0] == '!'
    ensures Table[Store] == StoreDescription && Table[Get] == GetDescription
    ensures Table[List] == ListDescription && Table[Man] == ManDescription
  {
    assert Store != Get && Store != List && Store != Man;
    assert Get != List && Get != Man && List != Man;
  }

  /** The registered names are the keys of the table: the first clause of
      `RegistryShape` on its own, for callers that need nothing more. */
  lemma KeysAreNames()
    ensures Table.Keys == Names
  {
  }

  /** Membership in the registry is equality with one of the four names. */
  lemma InRegistry(cmd: string)
    ensures cmd in Table <==> cmd == Store || cmd == Get || cmd == List || cmd == Man
  {
  }

  /** The entries of `table` visited in `order`, each with its description and no arguments. */
  function CommandsOf(table: map<string, string>, order: seq<string>): (all: seq<Command>)
    requires forall i :: 0 <= i < |order| ==> order[i] in table
    ensures |all| == |order|
    ensures forall i :: 0 <= i < |all| ==> all[i] == Command(order[i], table[order[i]], [])
  {
    seq(|order|, i requires 0 <= i < |order| => Command(order[i], table[order[i]], []))
  }

  /** Visiting a table in an iteration order lists each entry exactly once. */
  lemma CommandsOfEnumeration(table: map<string, string>, order: seq<string>)
    requires IterationOrder(order, table.Keys)
    ensures var all := CommandsOf(table, order);
            && |all| == |table.Keys|
            && (forall i :: 0 <= i < |all| ==>
                 all[i].cmd in table && all[i].description == table[all[i].cmd] && all[i].args == [])
            && (forall c :: c in table ==> exists i :: 0 <= i < |all| && all[i].cmd == c)
            && (forall i, j :: 0 <= i < j < |all| ==> all[i].cmd != all[j].cmd)
  {
    EnumerationSize(order, table.Keys);
    var all := CommandsOf(table, order);
    forall c | c in table ensures exists i :: 0 <= i < |all| && all[i].cmd == c {
      var i :| 0 <= i < |order| && order[i] == c;
      assert all[i].cmd == c;
    }
  }

  /** `getAllCommands`, visiting the table in `order`: one entry per registered
      name, carrying that name's description and no arguments. */
  function GetAllCommands(order: seq<string>): (all: seq<Command>)
    requires IterationOrder(order, Table.Keys)
    ensures |all| == 4
    ensures forall i :: 0 <= i < |all| ==>
              all[i].cmd in Table && all[i].description == Table[all[i].cmd] && all[i].args == []
    ensures forall c :: c in Table ==> exists i :: 0 <= i < |all| && all[i].cmd == c
    ensures forall i, j :: 0 <= i < j < |all| ==> all[i].cmd != all[j].cmd
  {
    RegistryShape();
    CommandsOfEnumeration(Table, order);
    CommandsOf(Table, order)
  }

  /** The manual entry for one command. */
  function Segment(cmd: string, description: string): string
  {
    cmd + " ---\n " + description + "\n"
  }

  /** The manual entries of the commands in `order`, in that order. */
  function SegmentsOf(table: map<string, string>, order: seq<string>): (segs: seq<string>)
    requires forall i :: 0 <= i < |order| ==> order[i] in table
    ensures |segs| == |order|
    ensures forall i :: 0 <= i < |order| ==> segs[i] == Segment(order[i], table[order[i]])
  {
    seq(|order|, i requires 0 <= i < |order| => Segment(order[i], table[order[i]]))
  }

  /** `getCommandManual`, visiting the table in `order`: whatever the order, the
      manual names every registered command together with its description. */
  function GetCommandManual(order: seq<string>): (manual: string)
    requires IterationOrder(order, Table.Keys)
    ensures forall c :: c in Table ==> Contains(manual, Segment(c, Table[c]))
    ensures forall c :: c in Table ==> Contains(manual, c)
  {
    ManualOfMentionsEveryEntry(Table, order);
    Concat(SegmentsOf(Table, order))
  }

  /** Rendering a table in any iteration order names every entry together with
      its description. */
  lemma ManualOfMentionsEveryEntry(table: map<string, string>, order: seq<string>)
    requires IterationOrder(order, table.Keys)
    ensures forall c :: c in table ==> Contains(Concat(SegmentsOf(table, order)), Segment(c, table[c]))
    ensures forall c :: c in table ==> Contains(Concat(SegmentsOf(table, order)), c)
  {
    var m := Concat(SegmentsOf(table, order));
    forall c | c in table
      ensures Contains(m, Segment(c, table[c]))
      ensures Contains(m, c)
    {
      var i :| 0 <= i < |order| && order[i] == c;
      ConcatContainsPart(SegmentsOf(table, order), i);
      var seg := Segment(c, table[c]);
      var j :| 0 <= j <= |m| && OccursAt(m, seg, j);
      OccursPrefix(m, seg, j, |c|);
      assert seg[..|c|] == c;
    }
  }

  /** Permuting the visiting order permutes the entries. */
  lemma {:induction false} SegmentsOfPermutation(table: map<string, string>, o1: seq<string>, o2: seq<string>)
    requires forall i :: 0 <= i < |o1| ==> o1[i] in table
    requires forall i :: 0 <= i < |o2| ==> o2[i] in table
    requires multiset(o1) == multiset(o2)
    ensures multiset(SegmentsOf(table, o1)) == multiset(SegmentsOf(table, o2))
    decreases |o1|
  {
    if |o1| == 0 {
      assert |o2| == |multiset(o2)| == 0;
    } else {
      var k := o1[0];
      var j :| 0 <= j < |o2| && o2[j] == k by {
        assert k in multiset(o1);
      }
      var rest1 := o1[1..];
      var rest2 := o2[..j] + o2[j + 1..];
      assert multiset(rest1) == multiset(rest2) by {
        assert o1[..0] + o1[1..] == rest1;
        MultisetSplice(o1, 0);
        MultisetSplice(o2, j);
        MultisetCancel([k], rest1, rest2);
      }
      SpliceStaysInTable(table, o2, j, rest2);
      SegmentsOfPermutation(table, rest1, rest2);
      SegmentsCons(table, o1);
      SegmentsSplice(table, o2, j);
    }
  }

  lemma MultisetCancel(a: seq<string>, x: seq<string>, y: seq<string>)
    requires multiset(a) + multiset(x) == multiset(a) + multiset(y)
    ensures multiset(x) == multiset(y)
  {
    assert multiset(x) == multiset(a) + multiset(x) - multiset(a);
  }

  /** Dropping one command from a visiting order leaves only commands of the table. */
  lemma SpliceStaysInTable(table: map<string, string>, o: seq<string>, j: nat, rest: seq<string>)
    requires forall i :: 0 <= i < |o| ==> o[i] in table
    requires j < |o| && rest == o[..j] + o[j + 1..]
    ensures forall i :: 0 <= i < |rest| ==> rest[i] in table
  {
    forall i | 0 <= i < |rest| ensures rest[i] in table {
      if i < j { assert rest[i] == o[i]; } else { assert rest[i] == o[i + 1]; }
    }
  }

  lemma SegmentsCons(table: map<string, string>, o: seq<string>)
    requires forall i :: 0 <= i < |o| ==> o[i] in table
    requires |o| > 0
    ensures multiset(SegmentsOf(table, o))
         == multiset([Segment(o[0], table[o[0]])]) + multiset(SegmentsOf(table, o[1..]))
  {
    assert SegmentsOf(table, o) == [Segment(o[0], table[o[0]])] + SegmentsOf(table, o[1..]);
  }

  /** Dropping one command from the visiting order drops exactly its entry. */
  lemma SegmentsSplice(table: map<string, string>, o: seq<string>, j: nat)
    requires forall i :: 0 <= i < |o| ==> o[i] in table
    requires j < |o|
    ensures multiset(SegmentsOf(table, o))
         == multiset([Segment(o[j], table[o[j]])]) + multiset(SegmentsOf(table, o[..j] + o[j + 1..]))
  {
    var s := SegmentsOf(table, o);
    MultisetSplice(s, j);
    assert s[..j] + s[j + 1..] == SegmentsOf(table, o[..j] + o[j + 1..]);
  }

  /** Two visiting orders yield manuals made of the same entries, each once:
      the manual is fixed up to a permutation of its per-command entries. */
  lemma ManualIsPermutationOfSegments(order1: seq<string>, order2: seq<string>)
    requires IterationOrder(order1, Table.Keys)
    requires IterationOrder(order2, Table.Keys)
    ensures multiset(SegmentsOf(Table, order1)) == multiset(SegmentsOf(Table, order2))
  {
    EnumerationsArePermutations(order1, order2, Table.Keys);
    SegmentsOfPermutation(Table, order1, order2);
  }
}

=== FILE: config.dfy ===
/** Start-up configuration (main.go): the two required environment values and
    the trailing-slash normalisation of the shared folder. `getenv` is
    `os.Getenv` (the empty string for an unset variable) and `notExist(p)` is
    `os.IsNotExist` of `os.Stat(p)`'s error. */
module Config {
  import opened GoLib

  const OwnerVariable := "OWNER_NUMBER"
  const FolderVariable := "ASSISTANT_FOLDER"

  const NoOwner := "Phone number not provided."
  const NoFolder := "Shared folder not provided"
  const MissingFolder := "Provided shared folder does not exists"

  /** What `main` hands to `NewAssistant`. */
  datatype Settings = Settings(owner: string, sharedFolder: string)

  /** Appends a '/' unless the folder already ends with one. Indexing the last
      character needs a non-empty folder, which `main` has checked. */
  function NormalizeFolder(folder: string): (r: string)
    requires |folder| > 0
    ensures |r| > 0 && r[|r| - 1] == '/'
    ensures folder <= r
    ensures |r| == |folder| + (if folder[|folder| - 1] == '/' then 0 else 1)
  {
    if folder[|folder| - 1] != '/' then folder + "/" else folder
  }

  /** Normalising twice is normalising once. */
  lemma NormalizeIdempotent(folder: string)
    requires |folder| > 0
    ensures NormalizeFolder(NormalizeFolder(folder)) == NormalizeFolder(folder)
  {
  }

  /** The checks of `main`, in order: an empty owner number, an empty folder and
      a folder that does not exist are each fatal with their own message;
      otherwise the owner is kept as given and the folder is normalised. The
      existence check uses the folder as given, before normalisation. */
  function Startup(getenv: string -> string, notExist: string -> bool): (r: Result<Settings>)
    ensures r.Ok? <==> getenv(OwnerVariable) != "" && getenv(FolderVariable) != ""
                       && !notExist(getenv(FolderVariable))
    ensures getenv(OwnerVariable) == "" ==> r == Err(NoOwner)
    ensures getenv(OwnerVariable) != "" && getenv(FolderVariable) == "" ==> r == Err(NoFolder)
    ensures getenv(OwnerVariable) != "" && getenv(FolderVariable) != "" && notExist(getenv(FolderVariable))
            ==> r == Err(MissingFolder)
    ensures r.Ok? ==> && r.value.owner == getenv(OwnerVariable)
                      && var f := r.value.sharedFolder;
                         && f == NormalizeFolder(getenv(FolderVariable))
                         && |f| > 0 && f[|f| - 1] == '/'
                         && getenv(FolderVariable) <= f
                         && |f| <= |getenv(FolderVariable)| + 1
  {
    var owner := getenv(OwnerVariable);
    var folder := getenv(FolderVariable);
    if owner == "" then Err(NoOwner)
    else if folder == "" then Err(NoFolder)
    else if notExist(folder) then Err(MissingFolder)
    else Ok(Settings(owner, NormalizeFolder(folder)))
  }

  /** The folder `main` settles on is already normal: normalising it again, as a
      second start-up with it as the configured folder would, changes nothing. */
  lemma StartupFolderIsNormal(getenv: string -> string, notExist: string -> bool)
    ensures var r := Startup(getenv, notExist);
            r.Ok? ==> |r.value.sharedFolder| > 0
                      && NormalizeFolder(r.value.sharedFolder) == r.value.sharedFolder
  {
    var r := Startup(getenv, notExist);
    if r.Ok? {
      NormalizeIdempotent(getenv(FolderVariable));
    }
  }
}

=== FILE: golib.dfy ===
/** The pieces of Go's runtime and standard library that the assistant relies on:
    error values, `strings.Split` on a single space, `%v` of an integer, the
    UTF-8 bytes of a string, and the (unspecified) iteration order of a map.
    `Join` and `Contains` are specification functions for stating contracts. */
module GoLib {

  /** A Go `error` return: `nil` or an error carrying its message. */
  datatype Outcome = Pass | Fail(error: string)

  /** A Go `(value, error)` pair where exactly one side is meaningful. */
  datatype Result<T> = Ok(value: T) | Err(error: string)

  datatype Option<T> = None | Some(value: T)

  /** Index of the first space in `s`, or `|s|` when there is none. */
  function FirstSpace(s: string): (i: nat)
    ensures i <= |s|
    ensures i < |s| ==> s[i] == ' '
    ensures forall k :: 0 <= k < i ==> s[k] != ' '
  {
    if |s| == 0 then 0
    else if s[0] == ' ' then 0
    else 1 + FirstSpace(s[1..])
  }

  /** `strings.Split(s, " ")`: the maximal space-free pieces of `s`, empty pieces
      kept; a string without a space yields itself as the only piece. */
  function Split(s: string): (parts: seq<string>)
    ensures |parts| >= 1
    ensures parts[0] == s[..FirstSpace(s)]
    ensures forall k :: 0 <= k < |parts| ==> ' ' !in parts[k]
    ensures |parts| == 1 <==> ' ' !in s
    decreases |s|
  {
    var i := FirstSpace(s);
    if i == |s| then [s]
    else [s[..i]] + Split(s[i + 1..])
  }

  /** The pieces joined with single spaces: a specification function, the
      inverse the `Split` round-trips are stated with. */
  function Join(parts: seq<string>): string
  {
    if |parts| == 0 then ""
    else if |parts| == 1 then parts[0]
    else parts[0] + " " + Join(parts[1..])
  }

  lemma FirstSpaceOfJoined(p: string, rest: string)
    requires ' ' !in p
    ensures FirstSpace(p + " " + rest) == |p|
  {
    if |p| > 0 {
      assert (p + " " + rest)[1..] == p[1..] + " " + rest;
      FirstSpaceOfJoined(p[1..], rest);
    }
  }

  /** Joining the pieces of a split with single spaces gives back the text. */
  lemma {:induction false} JoinSplit(s: string)
    ensures Join(Split(s)) == s
    decreases |s|
  {
    var i := FirstSpace(s);
    if i < |s| {
      SplitAtSpace(s, i);
      JoinOfCons(s[..i], Split(s[i + 1..]));
      JoinSplit(s[i + 1..]);
    }
  }

  lemma SplitAtSpace(s: string, i: nat)
    requires i == FirstSpace(s) < |s|
    ensures Split(s) == [s[..i]] + Split(s[i + 1..])
    ensures s == s[..i] + " " + s[i + 1..]
  {
    SpaceSplice(s, i);
  }

  /** A string is its prefix, a space and its suffix around any space. */
  lemma SpaceSplice(s: string, i: nat)
    requires i < |s| && s[i] == ' '
    ensures s == s[..i] + " " + s[i + 1..]
  {
    assert s[i..i + 1] == " ";
    assert s[..i] + s[i..i + 1] + s[i + 1..] == s;
  }

  lemma JoinOfCons(head: string, rest: seq<string>)
    requires |rest| >= 1
    ensures Join([head] + rest) == head + " " + Join(rest)
  {
    assert ([head] + rest)[1..] == rest;
  }

  /** Splitting a join of space-free pieces recovers the pieces. */
  lemma {:induction false} SplitJoin(parts: seq<string>)
    requires |parts| >= 1
    requires forall k :: 0 <= k < |parts| ==> ' ' !in parts[k]
    ensures Split(Join(parts)) == parts
  {
    if |parts| > 1 {
      var s := Join(parts);
      var rest := Join(parts[1..]);
      assert s == parts[0] + " " + rest;
      FirstSpaceOfJoined(parts[0], rest);
      assert s[..|parts[0]|] == parts[0];
      assert s[|parts[0]| + 1..] == rest;
      SplitJoin(parts[1..]);
    }
  }

  function DigitChar(d: nat): char
    requires d < 10
  {
    "0123456789"[d]
  }

  /** `fmt.Sprintf("%v", n)` for a non-negative integer: its decimal digits. */
  function Itoa(n: nat): (r: string)
    ensures |r| >= 1
    ensures forall k :: 0 <= k < |r| ==> '0' <= r[k] <= '9'
    ensures DecimalValue(r) == n
    ensures |r| == 1 || r[0] != '0'
    ensures n > 0 ==> r[0] != '0'
    decreases n
  {
    if n < 10 then [DigitChar(n)]
    else
      var prefix := Itoa(n / 10);
      DecimalValuePush(prefix, DigitChar(n % 10));
      prefix + [DigitChar(n % 10)]
  }

  /** The number a string of decimal digits denotes (reference for `Itoa`). */
  function DecimalValue(s: string): int
  {
    if |s| == 0 then 0
    else 10 * DecimalValue(s[..|s| - 1]) + (s[|s| - 1] as int - '0' as int)
  }

  lemma DecimalValuePush(s: string, c: char)
    ensures DecimalValue(s + [c]) == 10 * DecimalValue(s) + (c as int - '0' as int)
  {
    assert (s + [c])[..|s|] == s;
  }

  newtype byte = x: int | 0 <= x < 256

  /** The UTF-8 encoding of one character: Go keeps a string as these bytes. */
  function EncodeChar(c: char): (bytes: seq<byte>)
    ensures 1 <= |bytes| <= 4
    ensures |bytes| == 1 <==> c as int < 0x80
    ensures |bytes| == 1 ==> bytes[0] as int == c as int
    ensures |bytes| > 1 ==> bytes[0] >= 0xC0
  {
    var v := c as int;
    if v < 0x80 then [v as byte]
    else if v < 0x800 then [(0xC0 + v / 0x40) as byte, (0x80 + v % 0x40) as byte]
    else if v < 0x10000 then
      [(0xE0 + v / 0x1000) as byte, (0x80 + v / 0x40 % 0x40) as byte, (0x80 + v % 0x40) as byte]
    else
      [(0xF0 + v / 0x40000) as byte, (0x80 + v / 0x1000 % 0x40) as byte,
       (0x80 + v / 0x40 % 0x40) as byte, (0x80 + v % 0x40) as byte]
  }

  /** The bytes of a Go string: `len(s)` is their number and `s[i:j]` slices them. */
  function Utf8(s: string): (bytes: seq<byte>)
    ensures |bytes| >= |s|
    ensures |s| == 0 <==> bytes == []
  {
    if |s| == 0 then [] else EncodeChar(s[0]) + Utf8(s[1..])
  }

  /** The first byte of a string is an ASCII character exactly when the string
      starts with that character: every byte of a longer encoding is >= 0x80. */
  lemma Utf8StartsWithAscii(s: string, c: char)
    requires c as int < 0x80 && |s| > 0
    ensures Utf8(s)[0] as int == c as int <==> s[0] == c
  {
    var head := EncodeChar(s[0]);
    assert Utf8(s) == head + Utf8(s[1..]);
    assert Utf8(s)[0] == head[0];
  }

  /** Slicing the first two bytes yields two ASCII characters exactly when the
      string starts with those two characters. */
  lemma Utf8TwoAsciiPrefix(s: string, a: char, b: char)
    requires a as int < 0x80 && b as int < 0x80 && |Utf8(s)| >= 2
    ensures Utf8(s)[..2] == [(a as int) as byte, (b as int) as byte]
            <==> |s| >= 2 && s[0] == a && s[1] == b
  {
    var head := EncodeChar(s[0]);
    var rest := Utf8(s[1..]);
    assert Utf8(s) == head + rest;
    Utf8StartsWithAscii(s, a);
    if |head| == 1 {
      assert |rest| >= 1 && |s| >= 2;
      assert Utf8(s)[1] == rest[0];
      Utf8StartsWithAscii(s[1..], b);
      assert s[1..][0] == s[1];
    }
  }

  /** A specification predicate: `sub` occurs somewhere in `s`. */
  predicate Contains(s: string, sub: string)
  {
    exists i :: 0 <= i <= |s| && OccursAt(s, sub, i)
  }

  predicate OccursAt(s: string, sub: string, i: int)
  {
    0 <= i <= |s| - |sub| && s[i..i + |sub|] == sub
  }

  lemma ContainsInMiddle(a: string, sub: string, b: string)
    ensures Contains(a + sub + b, sub)
  {
    var s := a + sub + b;
    assert OccursAt(s, sub, |a|);
  }

  /** `order` is one of the orders a Go `range` over a map with key set `keys`
      may visit the keys in: every key exactly once. */
  predicate IterationOrder(order: seq<string>, keys: set<string>)
  {
    && (forall i, j :: 0 <= i < j < |order| ==> order[i] != order[j])
    && (forall i :: 0 <= i < |order| ==> order[i] in keys)
    && (forall k :: k in keys ==> k in order)
  }

  lemma AppendAssoc<T>(x: seq<T>, y: seq<T>, z: seq<T>)
    ensures x + (y + z) == (x + y) + z
  {
  }

  /** Concatenation of a sequence of strings. */
  function Concat(parts: seq<string>): string
  {
    if |parts| == 0 then "" else parts[0] + Concat(parts[1..])
  }

  lemma OccursAfterPrefix(p: string, s: string, sub: string, j: int)
    requires OccursAt(s, sub, j)
    ensures OccursAt(p + s, sub, |p| + j)
  {
    var w := p + s;
    forall k | 0 <= k < |sub| ensures w[|p| + j + k] == sub[k] {
      assert w[|p| + j + k] == s[j + k];
    }
    assert w[|p| + j..|p| + j + |sub|] == sub;
  }

  lemma OccursPrefix(s: string, sub: string, j: int, n: nat)
    requires OccursAt(s, sub, j) && n <= |sub|
    ensures OccursAt(s, sub[..n], j)
  {
    assert s[j..j + n] == s[j..j + |sub|][..n];
  }

  /** Every part of a concatenation occurs in it. */
  lemma {:induction false} ConcatContainsPart(parts: seq<string>, i: nat)
    requires i < |parts|
    ensures Contains(Concat(parts), parts[i])
  {
    var rest := Concat(parts[1..]);
    assert Concat(parts) == parts[0] + rest;
    if i == 0 {
      assert Concat(parts)[..|parts[0]|] == parts[0];
      assert OccursAt(Concat(parts), parts[0], 0);
    } else {
      ConcatContainsPart(parts[1..], i - 1);
      assert parts[1..][i - 1] == parts[i];
      var j :| 0 <= j <= |rest| && OccursAt(rest, parts[i], j);
      OccursAfterPrefix(parts[0], rest, parts[i], j);
    }
  }

  /** A duplicate-free enumeration of a set is as long as the set is large. */
  lemma {:induction false} EnumerationSize(order: seq<string>, keys: set<string>)
    requires IterationOrder(order, keys)
    ensures |order| == |keys|
    decreases |order|
  {
    if |order| > 0 {
      var k := order[|order| - 1];
      var front := order[..|order| - 1];
      assert forall i :: 0 <= i < |front| ==> front[i] == order[i];
      assert k !in front;
      assert IterationOrder(front, keys - {k});
      EnumerationSize(front, keys - {k});
    } else {
      assert forall k :: k !in keys;
    }
  }

  /** Removing position `j` from a duplicate-free enumeration of `keys`
      enumerates `keys` without that element. */
  lemma EnumerationRemove(o: seq<string>, keys: set<string>, j: nat)
    requires IterationOrder(o, keys) && j < |o|
    ensures IterationOrder(o[..j] + o[j + 1..], keys - {o[j]})
  {
    var r := o[..j] + o[j + 1..];
    forall a | 0 <= a < |r| ensures r[a] == o[if a < j then a else a + 1] {
    }
    forall x | x in keys - {o[j]} ensures x in r {
      var i :| 0 <= i < |o| && o[i] == x;
      if i < j { assert r[i] == x; } else { assert r[i - 1] == x; }
    }
  }

  lemma MultisetSplice(o: seq<string>, j: nat)
    requires j < |o|
    ensures multiset(o) == multiset([o[j]]) + multiset(o[..j] + o[j + 1..])
  {
    assert o == o[..j] + [o[j]] + o[j + 1..];
  }

  /** Two duplicate-free enumerations of one set are permutations of each other. */
  lemma {:induction false} EnumerationsArePermutations(o1: seq<string>, o2: seq<string>, keys: set<string>)
    requires IterationOrder(o1, keys) && IterationOrder(o2, keys)
    ensures multiset(o1) == multiset(o2)
    decreases |o1|
  {
    if |o1| == 0 {
      EnumerationSize(o1, keys);
      EnumerationSize(o2, keys);
    } else {
      var k := o1[0];
      var j :| 0 <= j < |o2| && o2[j] == k;
      var rest2 := o2[..j] + o2[j + 1..];
      EnumerationRemove(o2, keys, j);
      EnumerationRemove(o1, keys, 0);
      assert o1[..0] + o1[1..] == o1[1..];
      EnumerationsArePermutations(o1[1..], rest2, keys - {k});
      MultisetSplice(o2, j);
      assert o1 == [k] + o1[1..];
      assert multiset(o1) == multiset([k]) + multiset(o1[1..]);
    }
  }
}

=== FILE: message.dfy ===
/** The transport's message record and the decoder that turns the body of a
    D-Bus `MessageReceived` signal into one (signal/message.go). */
module SignalMessage {

  /** One chat message. `time` is the Unix time in seconds; building a value of
      this datatype is `NewMessage`, which stores its four arguments as given. */
  datatype Message = Message(time: int, phone: string, text: string, attachments: seq<string>)

  /** The dynamic type of one element of a D-Bus signal body, as far as the
      decoder distinguishes it. `Other` is any value of another D-Bus type. */
  datatype Variant = Int64(i: int) | Str(s: string) | StrList(l: seq<string>) | Other

  datatype DBusSignal = DBusSignal(name: string, body: seq<Variant>)

  /** Outcome of decoding a signal body. `WrongType(k)` is the error returned
      when element `k` has the wrong type; `BodyTooShort(k)` is the Go runtime
      panic raised by indexing element `k` of a body with at most `k` elements. */
  datatype Decoded = Decoded(msg: Message) | WrongType(field: nat) | BodyTooShort(index: nat)

  /** The element indices the decoder inspects, in the order it inspects them;
      element 2 (the group id) is never looked at. */
  const InspectedFields: seq<nat> := [0, 1, 3, 4]

  /** Whether element `k` of `body` exists and has the type the decoder expects there. */
  predicate FieldOk(body: seq<Variant>, k: nat)
  {
    k < |body| &&
    match k
    case 0 => body[0].Int64?
    case 1 => body[1].Str?
    case 3 => body[3].Str?
    case 4 => body[4].StrList?
    case _ => true
  }

  /** The body has every element the decoder reads, each of the expected type. */
  predicate WellFormedBody(body: seq<Variant>)
  {
    FieldOk(body, 0) && FieldOk(body, 1) && FieldOk(body, 3) && FieldOk(body, 4)
  }

  /** Element `k` is the first inspected element that is missing or mistyped;
      since the inspection order 0, 1, 3, 4 is ascending, "first" means "lowest". */
  predicate FirstFailure(body: seq<Variant>, k: nat)
  {
    && k in InspectedFields
    && !FieldOk(body, k)
    && forall e :: e in InspectedFields && e < k ==> FieldOk(body, e)
  }

  /** `newMessageFromSignal`: checks elements 0, 1, 3 and 4 in that order and
      stops at the first that is missing or of the wrong type. */
  function NewMessageFromSignal(signal: DBusSignal): (r: Decoded)
    ensures r.Decoded? <==> WellFormedBody(signal.body)
    ensures r.Decoded? ==> && WellFormedBody(signal.body)
                           && r.msg == Message(signal.body[0].i, signal.body[1].s,
                                               signal.body[3].s, signal.body[4].l)
    ensures r.WrongType? ==> FirstFailure(signal.body, r.field) && r.field < |signal.body|
    ensures r.BodyTooShort? ==> FirstFailure(signal.body, r.index) && r.index >= |signal.body|
  {
    var body := signal.body;
    if |body| <= 0 then BodyTooShort(0)
    else if !body[0].Int64? then WrongType(0)
    else if |body| <= 1 then BodyTooShort(1)
    else if !body[1].Str? then WrongType(1)
    else if |body| <= 3 then BodyTooShort(3)
    else if !body[3].Str? then WrongType(3)
    else if |body| <= 4 then BodyTooShort(4)
    else if !body[4].StrList? then WrongType(4)
    else Decoded(Message(body[0].i, body[1].s, body[3].s, body[4].l))
  }

  /** The body signal-cli emits for a received message with group id `group`. */
  function MessageBody(m: Message, group: Variant): seq<Variant>
  {
    [Int64(m.time), Str(m.phone), group, Str(m.text), StrList(m.attachments)]
  }

  /** Decoding the body of any well-formed received message gives the message back. */
  lemma DecodeMessageBody(name: string, m: Message, group: Variant)
    ensures NewMessageFromSignal(DBusSignal(name, MessageBody(m, group))) == Decoded(m)
  {
  }

  /** Element 2 of the body never influences the decoder's result. */
  lemma GroupIdIgnored(signal: DBusSignal, v: Variant)
    requires |signal.body| > 2
    ensures NewMessageFromSignal(DBusSignal(signal.name, signal.body[2 := v]))
         == NewMessageFromSignal(signal)
  {
  }
}

=== FILE: signal.dfy ===
/** The pure parts of the signal-cli transport (signal/signal.go): the phone
    number gate and argument vector of `SendMessage`, the filter `Listen` applies
    to incoming D-Bus signals, and the service-name search of `verifyConnection`.
    Launching signal-cli and the D-Bus connection are not modelled; running the
    `signal-cli` command is the `exec` oracle, which returns the command's error. */
module Signal {
  import opened GoLib
  import opened SignalMessage

  const ServiceName := "org.asamk.Signal"
  const ReceiptReceived := "org.asamk.Signal.ReceiptReceived"
  const NotFoundOnBus := "signal-cli connection not found on Dbus."

  /** The number holds the two bytes `PhoneNumber[0:2]` slices; `SendMessage` panics on
      a shorter one. Go strings are UTF-8 bytes, so a single non-ASCII
      character such as "é" already has two. */
  predicate TwoBytesLong(phone: string)
  {
    |Utf8(phone)| >= 2
  }

  /** The phone gate of `SendMessage`, on the bytes of the number. It rejects a
      number only when it neither starts with "+1" NOR is 12 bytes long:
      `SendMessage` combines the two tests with AND where OR (reject when either
      is wrong) looks intended. */
  function PhoneRejected(phone: string): (rejected: bool)
    requires TwoBytesLong(phone)
    ensures (forall k :: 0 <= k < |phone| ==> phone[k] as int < 0x80) ==>
              (rejected <==> !(phone[0] == '+' && phone[1] == '1') && |phone| != 12)
  {
    AsciiGateTests(phone);
    Utf8(phone)[..2] != Utf8("+1") && |Utf8(phone)| != 12
  }

  /** On an ASCII number the byte tests are the character tests. */
  lemma AsciiGateTests(phone: string)
    requires TwoBytesLong(phone)
    ensures (forall k :: 0 <= k < |phone| ==> phone[k] as int < 0x80) ==>
              && |Utf8(phone)| == |phone|
              && (Utf8(phone)[..2] == Utf8("+1") <==> phone[0] == '+' && phone[1] == '1')
  {
    if forall k :: 0 <= k < |phone| ==> phone[k] as int < 0x80 {
      AsciiByteLength(phone);
      assert Utf8("+1") == EncodeChar('+') + Utf8("1");
      assert Utf8("1") == EncodeChar('1') + Utf8("");
      Utf8TwoAsciiPrefix(phone, '+', '1');
    }
  }

  /** A number is accepted as soon as one of the two tests passes: it starts
      with the characters "+1", or it is 12 bytes long. */
  lemma PhoneGateAcceptsEitherTest(phone: string)
    requires TwoBytesLong(phone)
    ensures !PhoneRejected(phone) <==> (|phone| >= 2 && phone[0] == '+' && phone[1] == '1')
                                       || |Utf8(phone)| == 12
  {
    assert Utf8("+1") == EncodeChar('+') + Utf8("1");
    assert Utf8("1") == EncodeChar('1') + Utf8("");
    Utf8TwoAsciiPrefix(phone, '+', '1');
  }

  /** Numbers a strict gate would refuse that this gate lets through: "+1" alone,
      and twelve characters that are not a phone number at all. */
  lemma PhoneGateIsLax()
    ensures TwoBytesLong("+1") && !PhoneRejected("+1")
    ensures TwoBytesLong("hello, world") && !PhoneRejected("hello, world")
  {
    PhoneGateAcceptsEitherTest("+1");
    AsciiByteLength("hello, world");
  }

  /** Length is counted in bytes: twelve characters from U+0800 to U+FFFF (the
      full-width digits U+FF10..U+FF19, say) are 36 bytes, so the gate refuses
      them although they are twelve characters long. */
  lemma TwelveWideCharactersRejected(wide: string)
    requires |wide| == 12
    requires forall k :: 0 <= k < |wide| ==> 0x800 <= wide[k] as int < 0x10000
    ensures |Utf8(wide)| == 36 && TwoBytesLong(wide) && PhoneRejected(wide)
  {
    WideByteLength(wide);
    assert wide[0] != '+';
    PhoneGateAcceptsEitherTest(wide);
  }

  lemma {:induction false} AsciiByteLength(s: string)
    requires forall k :: 0 <= k < |s| ==> s[k] as int < 0x80
    ensures |Utf8(s)| == |s|
  {
    if |s| > 0 {
      assert forall k :: 0 <= k < |s| - 1 ==> s[1..][k] == s[k + 1];
      AsciiByteLength(s[1..]);
    }
  }

  lemma {:induction false} WideByteLength(s: string)
    requires forall k :: 0 <= k < |s| ==> 0x800 <= s[k] as int < 0x10000
    ensures |Utf8(s)| == 3 * |s|
  {
    if |s| > 0 {
      assert forall k :: 0 <= k < |s| - 1 ==> s[1..][k] == s[k + 1];
      WideByteLength(s[1..]);
    }
  }

  const PhoneFormatError := "Unable to send message, phone number format incorrect: "

  /** The arguments `SendMessage` passes to `signal-cli`. */
  function SendArgs(m: Message): (args: seq<string>)
    ensures |args| >= 5 && args[..5] == ["--dbus", "send", "-m", m.text, m.phone]
    ensures |m.attachments| == 0 ==> |args| == 5
    ensures |m.attachments| > 0 ==> |args| == 6 + |m.attachments| && args[5] == "-a"
                                    && args[6..] == m.attachments
  {
    var base := ["--dbus", "send", "-m", m.text, m.phone];
    if |m.attachments| > 0 then base + ["-a"] + m.attachments else base
  }

  /** Reads text, recipient and attachments back out of a `signal-cli send`
      argument vector (the reference `SendArgs` is checked against). */
  function ParseSendArgs(args: seq<string>): Option<(string, string, seq<string>)>
  {
    if |args| < 5 || args[..3] != ["--dbus", "send", "-m"] then None
    else if |args| == 5 then Some((args[3], args[4], []))
    else if args[5] == "-a" && |args| > 6 then Some((args[3], args[4], args[6..]))
    else None
  }

  /** The argument vector carries exactly the message's text, recipient and
      attachments, in order. */
  lemma SendArgsRoundTrip(m: Message)
    ensures ParseSendArgs(SendArgs(m)) == Some((m.text, m.phone, m.attachments))
  {
    var args := SendArgs(m);
    assert args[..3] == ["--dbus", "send", "-m"];
  }

  /** `SendMessage`: the phone gate, then one run of signal-cli. */
  function SendMessage(m: Message, exec: seq<string> -> Outcome): (r: Outcome)
    requires TwoBytesLong(m.phone)
    ensures PhoneRejected(m.phone) ==> r == Fail(PhoneFormatError + m.phone)
    ensures !PhoneRejected(m.phone) ==> r == exec(SendArgs(m))
  {
    if PhoneRejected(m.phone) then Fail(PhoneFormatError + m.phone)
    else exec(SendArgs(m))
  }

  /** A one-character number such as "é" is two bytes long, so `SendMessage`
      does not panic on it: it refuses it with the format error. */
  lemma OneCharacterNumberRefused(time: int, text: string, attachments: seq<string>,
                                  exec: seq<string> -> Outcome)
    ensures TwoBytesLong("\U{E9}")
    ensures SendMessage(Message(time, "\U{E9}", text, attachments), exec) == Fail(PhoneFormatError + "\U{E9}")
  {
    assert Utf8("\U{E9}") == EncodeChar('\U{E9}') + Utf8("");
    PhoneGateAcceptsEitherTest("\U{E9}");
  }

  /** A rejected number never reaches signal-cli: the result is the same whatever
      running the command would have done. */
  lemma RejectedNumberNeverExecutes(m: Message, exec1: seq<string> -> Outcome,
                                    exec2: seq<string> -> Outcome)
    requires TwoBytesLong(m.phone) && PhoneRejected(m.phone)
    ensures SendMessage(m, exec1) == SendMessage(m, exec2)
    ensures SendMessage(m, exec1).Fail?
  {
  }

  /** What `Listen` delivers on its channel before its input ends or it panics. */
  datatype Listened = Listened(forwarded: seq<Message>, panicked: bool)

  /** A signal `Listen` turns into a delivered message. */
  predicate Deliverable(s: DBusSignal)
  {
    s.name != ReceiptReceived && NewMessageFromSignal(s).Decoded?
  }

  /** One turn of the receive loop of `Listen`: a read receipt or a body that
      fails to decode is skipped, a body too short to index panics, and a decoded
      message is delivered ahead of whatever the later turns deliver. */
  function ListenStep(s: DBusSignal, later: Listened): (r: Listened)
    ensures r.panicked <==> later.panicked || (s.name != ReceiptReceived && NewMessageFromSignal(s).BodyTooShort?)
    ensures !r.panicked ==> r.forwarded == (if Deliverable(s) then [NewMessageFromSignal(s).msg] else []) + later.forwarded
  {
    if s.name == ReceiptReceived then later
    else
      match NewMessageFromSignal(s)
      case Decoded(m) => Listened([m] + later.forwarded, later.panicked)
      case WrongType(_) => later
      case BodyTooShort(_) => Listened([], true)
  }

  /** The receive loop of `Listen` over a finite stream of signals. */
  function Listen(signals: seq<DBusSignal>): (r: Listened)
    ensures |r.forwarded| <= |signals|
    ensures forall m :: m in r.forwarded ==>
              exists s :: s in signals && Deliverable(s) && NewMessageFromSignal(s) == Decoded(m)
    ensures r.panicked ==> exists s :: s in signals && s.name != ReceiptReceived
                                       && NewMessageFromSignal(s).BodyTooShort?
  {
    if |signals| == 0 then Listened([], false)
    else ListenStep(signals[0], Listen(signals[1..]))
  }

  /** Skipping continues the loop: after a prefix that does not panic, the
      messages of the rest follow those of the prefix. */
  lemma {:induction false} ListenAppend(a: seq<DBusSignal>, b: seq<DBusSignal>)
    requires !Listen(a).panicked
    ensures Listen(a + b) == Listened(Listen(a).forwarded + Listen(b).forwarded, Listen(b).panicked)
  {
    if |a| == 0 {
      assert a + b == b;
    } else {
      var ab := a + b;
      assert ab[0] == a[0];
      assert ab[1..] == a[1..] + b;
      assert Listen(ab) == ListenStep(a[0], Listen(a[1..] + b));
      assert !Listen(a[1..]).panicked;
      ListenAppend(a[1..], b);
      var rest := Listen(a[1..]);
      var joined := Listened(rest.forwarded + Listen(b).forwarded, Listen(b).panicked);
      assert Listen(ab) == ListenStep(a[0], joined);
      if Deliverable(a[0]) {
        AppendAssoc([NewMessageFromSignal(a[0]).msg], rest.forwarded, Listen(b).forwarded);
      }
    }
  }

  /** When every signal is deliverable, all are forwarded, in arrival order. */
  lemma {:induction false} ListenForwardsInOrder(signals: seq<DBusSignal>)
    requires forall j :: 0 <= j < |signals| ==> Deliverable(signals[j])
    ensures !Listen(signals).panicked
    ensures |Listen(signals).forwarded| == |signals|
    ensures forall j :: 0 <= j < |signals| ==>
              NewMessageFromSignal(signals[j]) == Decoded(Listen(signals).forwarded[j])
  {
    if |signals| > 0 {
      var rest := signals[1..];
      assert forall j :: 0 <= j < |rest| ==> Deliverable(rest[j]) by {
        forall j | 0 <= j < |rest| ensures Deliverable(rest[j]) {
          assert rest[j] == signals[j + 1];
        }
      }
      ListenForwardsInOrder(rest);
      var later := Listen(rest);
      assert Deliverable(signals[0]);
      var forwarded := [NewMessageFromSignal(signals[0]).msg] + later.forwarded;
      assert Listen(signals) == ListenStep(signals[0], later);
      assert !Listen(signals).panicked && Listen(signals).forwarded == forwarded;
      forall j | 0 <= j < |signals|
        ensures NewMessageFromSignal(signals[j]) == Decoded(forwarded[j])
      {
        if j > 0 {
          assert signals[j] == rest[j - 1] && forwarded[j] == later.forwarded[j - 1];
        }
      }
    }
  }

  /** A stream of read receipts delivers nothing. */
  lemma {:induction false} ReceiptsDropped(signals: seq<DBusSignal>)
    requires forall j :: 0 <= j < |signals| ==> signals[j].name == ReceiptReceived
    ensures Listen(signals) == Listened([], false)
  {
    if |signals| > 0 {
      ReceiptsDropped(signals[1..]);
    }
  }

  /** `verifyConnection`, given the reply to `ListNames`: succeeds iff the
      reply arrived and lists the signal-cli service. */
  method VerifyConnection(listNames: Result<seq<string>>) returns (err: Outcome)
    ensures err.Pass? <==> listNames.Ok? && ServiceName in listNames.value
    ensures listNames.Err? ==> err == Fail(listNames.error)
    ensures listNames.Ok? && ServiceName !in listNames.value ==> err == Fail(NotFoundOnBus)
  {
    if listNames.Err? {
      return Fail(listNames.error);
    }
    var names := listNames.value;
    var found := false;
    var i := 0;
    while i < |names|
      invariant 0 <= i <= |names|
      invariant found <==> ServiceName in names[..i]
      invariant found ==> ServiceName in names
    {
      if names[i] == ServiceName {
        found := true;
        break;
      }
      i := i + 1;
    }
    assert !found ==> names[..i] == names;
    err := if found then Pass else Fail(NotFoundOnBus);
  }
}
